=== FILE: README.md ===
# FAT filesystem model

A Dafny model of `fat.c`, a small FAT-style filesystem. It runs over a block
store of fixed-size blocks and has this layout:

| region | blocks | content |
|---|---|---|
| superblock | 0 | magic, block count, FAT block count, padding |
| directory | 1 | 64 items of 16 bytes |
| FAT | `[2, 2 + n_fat_blocks)` | one little-endian 32-bit entry per block |
| data | `[2 + n_fat_blocks, number_blocks)` | file contents |

The C globals become the fields of one object, `Fat.FileSystem`:

- `sb`, the superblock;
- the `dir` and `fat` arrays;
- `mounted`, which is `mountState`;
- `disk`, a sequence of blocks that `ds_read`/`ds_write` read and replace;
- `size`, which is `ds_size()`;
- a ghost field `chains` that names the chain each directory slot owns.

Each of `fat_format`, `fat_mount`, `fat_create`, `fat_delete`, `fat_getsize`,
`fat_read` and `fat_write` is a method. Their loops are `while` loops with
invariants: the first-fit scans, the chain walks and the per-block
read-modify-write. The sub-steps of `fat_write` are split into methods of
their own.

The modules are:

- `FatTypes` (fat_types.dfy): constants, machine words and records.
- `Encoding` (encoding.dfy): the byte images of the superblock, the directory
  block and the FAT blocks, with their round-trip lemmas.
- `FatSpec` (fat_spec.dfy): the state as values and its invariant `WF`.
  - Chains, the first-fit order of FREE blocks, and a file's byte stream.
  - What `WF` says: reserved blocks are BUSY; every used entry owns an acyclic
    EOFF-terminated chain inside the data region that covers its length;
    chains are pairwise disjoint; used names are unique.
  - The lemmas that each mutation keeps `WF`.
  - `Accounted`, the conservation property: every non-FREE data block is on
    some file's chain.
- `Fat` (fat.dfy): the class and its methods.
- `Scenarios` (scenarios.dfy): call sequences as a client issues them:
  - format then mount;
  - mount of a store written from a well-formed state;
  - create then getsize;
  - delete then getsize;
  - write then read.

Format, create, delete and write, when they succeed, end with their metadata
written back (`Flushed()`). The one failing call among them that changes
state is the ENOSPC of a zero-length write at a block-aligned offset,
described below: its FAT changes stay in memory. A successful format
leaves a well-formed state (`WellFormed()`) in which every data block that
is not FREE lies on a chain (`FatSpec.Accounted`); its EBUSY changes
nothing. Create, delete and write, failing or not, keep `WellFormed()` and
`NoLeak()`, the same accounting for a mounted store.

Mount writes nothing and reads the store as it finds it, so on an arbitrary
store it promises neither invariant. An EINVAL mount even keeps the
superblock it read, bad magic number and all. `Scenarios.MountFlushed` shows
that mounting a store whose metadata was written from a well-formed state
rebuilds that exact state, invariants included. So the invariants hold
across a remount of a store these operations wrote.

Behaviours of the code that are easy to misread, kept as written:

- `fat_create` accepts the empty name. Only names longer than 6 bytes are
  rejected (fat.c:178).
- `fat_delete` walks the chain with no hop bound (fat.c:263-267). A cyclic
  chain would loop forever, so `Delete` requires the invariant.
- A corrupted chain pointer makes `fat_write` fail with EINVAL. There is no
  separate corruption error (fat.c:411-414).
- A zero-length write is not a no-op:
  - it can give the file its first block;
  - it extends the chain to the block of `offset`;
  - it raises the length to `offset` when `offset` lies past the end
    (fat.c:430-472, fat.c:518-520).
  - At a block-aligned offset, the walk needs one block more than the space
    check counted. If exactly that many blocks are FREE, the call returns
    ENOSPC. By then it has already linked every FREE block in memory, and it
    writes nothing back (fat.c:464-467). `Write` states this outcome.
- The mid-write ENOSPC return of a partial count (fat.c:506-508) cannot
  happen after the space check has passed in a well-formed state. `Write`
  proves that a non-empty write returns `|buf|`.
- `fat_mount` reads the first `n_fat_blocks` FAT blocks. The rest of the FAT
  buffer keeps what it held (fat.c:153-155).

## Model

| member | source | states |
|---|---|---|
| FatTypes.FatBlocks | fat.c:63-64 | the FAT block count is the least number of 1024-byte blocks that hold 4 bytes per store block |
| FatTypes.BlocksFor | fat.c:406 | the blocks a stream of `len` bytes needs: the least count whose 1024-byte blocks cover `len` |
| FatTypes.DataBlocksAreNotSentinels | fat.c:47-49 | on a non-empty store every data block number is at least 3, so never FREE, EOFF or BUSY |
| FatTypes.FatTableFits | fat.c:50 | the FAT of a store of at most FAT_ENTRIES blocks fits the in-memory fat buffer |
| Encoding.U32RoundTrip | fat.c:38-39 | decoding the 4 little-endian bytes of a 32-bit word gives the word back |
| Encoding.SuperRoundTrip | fat.c:22-27 | the superblock read back with `ds_read` is the one `ds_write` stored: magic, counts and padding |
| Encoding.TakeNamePadded | fat.c:222-223 | a name of at most 6 non-NUL bytes, stored NUL-padded in the 7-byte field, reads back unchanged |
| Encoding.ItemRoundTrip | fat.c:35-40 | a directory item read back from its 16 bytes equals the stored item |
| Encoding.DirRoundTrip | fat.c:42-44 | the directory block read back gives the 64 stored items |
| Encoding.FatBlockRoundTrip | fat.c:87-94 | entry `k` of FAT block `i` decodes to FAT entry `i*256+k` |
| Encoding.FatReload | fat.c:153-155 | loading FAT blocks written from FAT `f` gives back `f` on every entry they cover |
| FatSpec.Find | fat.c:249-255 | the lookup gives the first used entry with the name, or -1 exactly when no used entry has it |
| FatSpec.FirstUnused | fat.c:192-198 | the first unused directory slot, or -1 exactly when every slot is used |
| FatSpec.FreeBlocksAreFree | fat.c:205-211 | every block in the first-fit free list is FREE |
| FatSpec.FreeBlocksComplete | fat.c:420-423 | every FREE block of the range is in the free list |
| FatSpec.FreeBlocksSorted | fat.c:205-211 | the free list is strictly increasing, so its head is the lowest FREE block |
| FatSpec.FreeBlocksTake | fat.c:217-218 | marking the lowest FREE block used removes just that block from the list |
| FatSpec.FreeBlocksKeep | fat.c:510-511 | changing an entry without changing whether it is FREE leaves the free list as it was |
| FatSpec.WalkChain | fat.c:351-356 | following `k` links from a chain's first block reaches the chain's `k`-th block |
| FatSpec.NegativeOffsetRejected | fat.c:334-337 | in a well-formed state every used entry's length is at most INT_MAX, so the unsigned comparison rejects every negative offset |
| FatSpec.WalkSplit | fat.c:351-356 | walking `k + m` links is walking `k` and then `m` |
| FatSpec.ChainOfIsChain | fat.c:409-417 | the walk from `first` of a well-formed chain rebuilds exactly that chain |
| FatSpec.ChainStep | fat.c:262-267 | in a well-formed state each chain block is a data block, links to the next, only the last is EOFF, and none repeats |
| FatSpec.ChainBlocksAreNotSentinels | fat.c:47-49 | a block on a chain is never one of the sentinel values |
| FatSpec.FreeIsOffChains | fat.c:204-211 | a FREE block is on no file's chain, so first-fit never takes a block a file owns |
| FatSpec.ChainLength | fat.c:409-417 | an acyclic chain in the data region has at most `number_blocks - data_start` blocks, so the walk ends |
| FatSpec.WFFrame | fat.c:153-155 | FAT entries at or beyond `number_blocks` do not matter: the invariant and every chain depend only on the entries below |
| FatSpec.BlockAccounting | fat.c:261-267 | conservation: with no leak, a data block is FREE exactly when no file's chain holds it |
| FatSpec.AccountedFormatted | fat.c:76-85 | a freshly formatted FAT, all data blocks FREE, has no leaked block |
| FatSpec.AccountedTake | fat.c:217-225 | giving a new file the block create marks EOFF leaks nothing |
| FatSpec.AccountedRelease | fat.c:261-270 | freeing a file's chain with its entry leaks nothing |
| FatSpec.AccountedGrown | fat.c:430-515 | growing a chain by FREE blocks only leaks nothing |
| FatSpec.FormattedWF | fat.c:76-85 | format's state is well-formed: reserved blocks BUSY, no used entry, no chains |
| FatSpec.NewChainWF | fat.c:217-225 | a new entry with a fresh name owning one FREE block, now EOFF, keeps the invariant |
| FatSpec.ReleaseWF | fat.c:261-270 | freeing a chain and unmarking its entry keeps the invariant |
| FatSpec.ReleasedNameIsGone | fat.c:270 | after the entry is unmarked, lookup of its name finds nothing |
| FatSpec.ExtendChain | fat.c:510-511 | linking a FREE block after the EOFF tail and marking it EOFF gives the chain with that block appended |
| FatSpec.ExtendChainWF | fat.c:468-469 | extending a file's chain by a FREE data block keeps the invariant |
| FatSpec.StartChainWF | fat.c:431-438 | giving a blockless file a FREE block as its first keeps the invariant |
| FatSpec.SetLengthWF | fat.c:517-520 | a length covered by the chain keeps the invariant |
| FatSpec.WalkBlocks | fat.c:449-515 | the blocks write walks to: ceil((offset+n)/1024) for n > 0, and offset/1024+1 for a zero-length write |
| FatSpec.WriteRound | fat.c:486-495 | one round of the write loop copies into block `j` at the right start, and another round needs block `j+1` |
| FatSpec.LinkFreeBlock | fat.c:498-512 | linking the lowest FREE block after the tail keeps the invariant and the lowest-first growth |
| FatSpec.LinkGrown | fat.c:498-512 | the chain stays its old blocks followed by the lowest FREE blocks of the original FAT |
| FatSpec.GrownCount | fat.c:419-428 | growing moves blocks from the free list to the chain one for one |
| FatSpec.GrownStep | fat.c:456-470 | taking the next FREE block keeps the chain its old blocks plus a lowest-first run of FREE blocks |
| FatSpec.StreamBlock | fat.c:363-372 | bytes `start..start+len` of chain block `j` are those bytes of the file's stream at `j*1024+start` |
| FatSpec.ReadStep | fat.c:362-376 | one round of the read loop appends the next stream bytes and moves to the next chain block |
| FatSpec.StreamWrite | fat.c:484-493 | patching bytes of chain block `j` patches the file stream at `j*1024+start` |
| FatSpec.PatchTwice | fat.c:492 | two adjacent copies into a buffer are one copy of their concatenation |
| FatSpec.OverlaidWrite | fat.c:484-495 | after the block write, the stream is the old stream with the written bytes laid over it |
| FatSpec.OverlaidKeep | fat.c:522-527 | writing the FAT and directory back leaves the file's stream and the data blocks alone |
| FatSpec.OverlaidRead | fat.c:358-377 | reading the window back gives the written bytes, and bytes outside it keep their old values |
| FatSpec.WrittenBytes | fat.c:517-520 | at the file level: the written bytes are at `offset`, the new length covers them, and the file's other old bytes are kept |
| Fat.FileSystem.constructor | fat.c:44-52 | the globals start zeroed: unmounted, every entry unused, the FAT all FREE, the store as given |
| Fat.FileSystem.FindEntry | fat.c:249-255 | the lookup loop returns the index `Find` gives |
| Fat.FileSystem.FindFreeSlot | fat.c:192-198 | the slot scan returns the first unused slot, or -1 |
| Fat.FileSystem.FindFreeBlock | fat.c:205-211 | the block scan returns the lowest FREE data block, or -1 when none is FREE |
| Fat.FileSystem.CountFree | fat.c:420-423 | the count is the number of FREE data blocks |
| Fat.FileSystem.CountChain | fat.c:409-417 | the pre-count walk of a well-formed chain counts its blocks |
| Fat.FileSystem.FlushFat | fat.c:91-94 | FAT block `TABLE+i` receives the encoding of entries `[256i, 256i+256)`, other blocks unchanged |
| Fat.FileSystem.MarkAllUnused | fat.c:70-72 | every directory entry becomes unused, its other fields kept |
| Fat.FileSystem.ResetFat | fat.c:76-85 | blocks below `2+n_fat_blocks` become BUSY, the rest of the store FREE, entries beyond it unchanged |
| Fat.FileSystem.Format | fat.c:55-97 | EBUSY when mounted, changing nothing. Otherwise the superblock, every entry unused, the FAT BUSY/FREE layout, the metadata blocks written, data blocks untouched, well-formed and leak-free |
| Fat.FileSystem.LoadFat | fat.c:153-155 | FAT entry `b` below `256*n_fat_blocks` is decoded from block `TABLE + b/256`, the rest unchanged |
| Fat.FileSystem.Mount | fat.c:143-167 | EBUSY when mounted, changing nothing. The superblock is read; EINVAL on a wrong magic. Otherwise mounted, with the directory and FAT decoded from the store |
| Fat.FileSystem.PlanCreate | fat.c:172-215 | the create checks in their order: EINVAL, EEXIST, ENOSPC for no slot, ENOSPC for no block, else the first slot and lowest FREE block |
| Fat.FileSystem.Create | fat.c:170-234 | the same error cascade with nothing changed. On success the first free slot gets the name, length 0 and the lowest FREE data block, now EOFF; metadata written back; invariant and no-leak kept |
| Fat.FileSystem.AddEntry | fat.c:217-231 | the slot and block are filled in and the directory and FAT written back |
| Fat.FileSystem.Delete | fat.c:237-280 | EINVAL or ENOENT with nothing changed. On success every block of the file's chain is FREE, the entry unused, all else unchanged; the name is no longer found; metadata written back; invariant and no-leak kept |
| Fat.FileSystem.RemoveEntry | fat.c:261-277 | frees the chain, unmarks the entry and writes the metadata back |
| Fat.FileSystem.FreeChain | fat.c:262-267 | the walk sets exactly the chain's blocks to FREE |
| Fat.FileSystem.GetSize | fat.c:283-307 | EINVAL for a long name or when unmounted, ENOENT for an unknown name, else the entry's length; no state change |
| Fat.FileSystem.Seek | fat.c:346-356 | the skip walk ends where `skip` links from `first` lead, or reports that the chain ended first |
| Fat.FileSystem.ReadFrom | fat.c:358-377 | the copy loop returns at most `readable` bytes, none exactly when the start block is off the store or EOFF, and on a well-formed chain exactly the stream bytes |
| Fat.FileSystem.ReadBlocks | fat.c:346-377 | the skip and copy: empty exactly when the skip walk misses, else the stream bytes from `offset` |
| Fat.FileSystem.Read | fat.c:310-378 | EINVAL or ENOENT as checked; EINVAL when `offset`, converted to unsigned, is at least the length, and for every negative `offset`; else at most `min(n, length-offset)` bytes, empty exactly when the skip walk misses; in a well-formed state exactly the file's bytes at `offset`; no state change |
| Fat.FileSystem.CheckWrite | fat.c:382-428 | the write checks: success only when mounted, the name is found, `offset >= 0` and enough FREE blocks remain |
| Fat.FileSystem.PlanWrite | fat.c:382-428 | the check loops compute the outcome `CheckWrite` specifies |
| Fat.FileSystem.StartChain | fat.c:430-446 | a file with blocks keeps them; a blockless one gets the lowest FREE block as first, or ENOSPC with nothing changed |
| Fat.FileSystem.TakeFirstBlock | fat.c:433-438 | the chosen block becomes EOFF and the entry's first block |
| Fat.FileSystem.Hop | fat.c:450-471 | one step of the skip walk, appending the lowest FREE block at the chain's end, or ENOSPC with nothing changed |
| Fat.FileSystem.SkipTo | fat.c:448-472 | the walk reaches chain block `skip`, growing the chain lowest-first, and fails exactly when chain and FREE blocks fall short |
| Fat.FileSystem.WalkTo | fat.c:430-472 | first block and skip walk together: success exactly when the chain and FREE blocks reach block `skip` |
| Fat.FileSystem.Extend | fat.c:498-512 | appends the lowest FREE block, or returns -1 when none is FREE, changing nothing |
| Fat.FileSystem.Link | fat.c:510-511 | the tail points to the new block, which becomes EOFF and joins the chain |
| Fat.FileSystem.CopyIn | fat.c:484-493 | the read-modify-write replaces just the copied bytes of one block, extending the overlay |
| Fat.FileSystem.WriteStep | fat.c:484-514 | one round of the write loop keeps the loop invariant `Writing` for the next state |
| Fat.FileSystem.WritingStart | fat.c:474-478 | the write loop starts at the block holding byte `offset`, inside the store, with nothing written and the old store as its overlay base |
| Fat.FileSystem.WriteBlocks | fat.c:474-515 | after the space check the loop writes all of `buf`, without a mid-write stop |
| Fat.FileSystem.FinishWrite | fat.c:517-527 | the length becomes `max(length, end)`, other entries unchanged, metadata written back, file bytes kept |
| Fat.FileSystem.WriteTail | fat.c:474-529 | the loop and the finish: returns `|buf|`, the stream overlaid with `buf`, the length raised |
| Fat.FileSystem.WriteEntry | fat.c:430-529 | after the checks, success exactly when the blocks reach, always for a non-empty `buf`; else ENOSPC with every FREE block taken and nothing written back |
| Fat.FileSystem.Write | fat.c:381-529 | a failed check returns its error, changing nothing. Otherwise the chain grows by lowest FREE blocks only. On success it returns `|buf|`, the length is `max(length, offset+|buf|)`, `buf` lies at `offset` with bytes outside kept, metadata written back. Invariant and no-leak kept |
| Scenarios.MountFlushed | fat.c:143-167 | mounting a store written from a well-formed state succeeds and rebuilds that state: superblock, directory, FAT, chains, well-formedness, no-leak |
| Scenarios.FormatThenMount | fat.c:55-167 | format then mount both succeed, and the mounted state has every entry unused, reserved blocks BUSY and data blocks FREE |
| Scenarios.CreateThenGetSize | fat.c:170-307 | a created file has size 0; EEXIST means the name is found; EINVAL from create means EINVAL from getsize |
| Scenarios.DeleteThenGetSize | fat.c:237-307 | after a delete the name is unknown (ENOENT); a failed delete fails getsize the same way |
| Scenarios.WriteThenRead | fat.c:381-529 | a successful non-empty write returns `|buf|`, and reading `|buf|` bytes at the same offset returns `buf` |
| Scenarios.WriteInto | fat.c:381-529 | a successful write of a non-empty `buf` returns `|buf|`; the name's slot is the one found before, it now holds `buf` at `offset` over the old store, and every other slot is unchanged |
| Scenarios.ReadAfterWrite | fat.c:310-378 | right after a successful write of `buf`, the read at its offset returns `buf` |
| Scenarios.ReadsBack | fat.c:517-520 | after the write the name still finds its slot, and the file holds `buf` at `offset` |

## Left out

- Fat.FileSystem.Write: requires `WellFormed()` when mounted, so it makes no claim on a store with a cyclic or out-of-range chain.
  - The pre-count walk (fat.c:410-417) has no hop bound and terminates only on an acyclic chain.
  - As a result, the EINVAL returns for a chain pointer at or beyond `number_blocks` (fat.c:411-414, 451-454, 480-483) cannot be reached.
  - A store written by the modelled operations mounts into a well-formed state (`Scenarios.MountFlushed`).
- Fat.FileSystem.Delete: requires `WellFormed()` when mounted, for the same reason. The free loop (fat.c:263-267) has no hop bound, and its stop at an out-of-range pointer never fires.
- Fat.FileSystem.Write: requires `offset + |buf| + 1023 <= INT_MAX`. The rounding `offset + length + BLOCK_SIZE - 1` at fat.c:406 would overflow `int` otherwise, which is undefined behaviour in C.
- Fat.FileSystem.Write: `length` is a `nat` taken as `|buf|`, and negative C lengths are not modelled.
- Fat.FileSystem.Read: returns EINVAL for every negative `offset`. The code
  compares the offset with the unsigned length as an unsigned word
  (fat.c:334), so with a stored length above INT_MAX a negative offset gets
  past that check and the read goes on from a negative block offset. The
  model does not follow that path. No well-formed state has such a length
  (`FatSpec.NegativeOffsetRejected`).
- Fat.FileSystem.Read: `length` is a `nat`, and negative C lengths are not modelled. Inputs where `offset + length` at fat.c:340 would overflow `int` are excluded by `offset + length <= INT_MAX`.
- Fat.FileSystem.GetSize: returns the stored unsigned length as a `nat`. fat.c:306 converts it to `int`, which for a length above `INT_MAX` gives a negative value.
- Fat.FileSystem.Mount: requires that a superblock with the right magic describes this store: its block count is `ds_size()`, and its FAT blocks lie inside the store and fit the fat buffer. Otherwise `ds_read` aborts or the FAT buffer overflows.
- Fat.FileSystem.Format: requires a store large enough for the superblock, directory and FAT blocks. Otherwise `ds_write` aborts.
- The `!name` checks (fat.c:178, 243, 284, 382): a name is a value here (`CString`, bytes without NUL), never a null pointer.
- `BLOCK_SIZE` is fixed at 1024 (fat_types.dfy:9). ds.h is not part of this model, and every result is proved for that value only.
- Fat.FileSystem.constructor: requires a store of at most `FAT_ENTRIES` (2^20) blocks, and every state keeps that bound. On a larger store, `fat_format` writes past the end of the static `fat` buffer (fat.c:50, fat.c:76-78), which is not modelled.
- The float `ceil` at fat.c:63-64 is an integer ceiling. For stores of at most `FAT_ENTRIES` blocks the float computation is exact.
- The byte images assume a little-endian host and the padding-free layout of `super` and `dir_item`. The superblock padding is carried as bytes.
- `ds_read`/`ds_write` aborts (ds.c) become preconditions, not error results. Read and write counters, file opening and `ds_close` are left out.
- `fat_debug` (fat.c:100-140) only prints and is left out.
- cmd.c (the command loop and host-file copying) is not part of this model.
- A crash between data and metadata writes is not modelled: each call runs to completion.

=== FILE: encoding.dfy ===
/** Byte images of the superblock, the directory block and the FAT blocks, as
    fat.c writes them with `ds_write` and reads them back with `ds_read`
    (little-endian 32-bit words, C struct layout without padding). */
module Encoding {
  import opened FatTypes

  function EncodeU32(x: u32): (r: seq<byte>)
    ensures |r| == 4
  {
    [x % 0x100, x / 0x100 % 0x100, x / 0x100 / 0x100 % 0x100, x / 0x100 / 0x100 / 0x100]
  }

  function DecodeU32(b: seq<byte>): (r: u32)
    requires |b| == 4
  {
    b[0] as int + 0x100 * (b[1] as int + 0x100 * (b[2] as int + 0x100 * (b[3] as int)))
  }

  lemma U32RoundTrip(x: u32)
    ensures DecodeU32(EncodeU32(x)) == x
  {
    var q1 := x / 0x100;
    var q2 := q1 / 0x100;
    var q3 := q2 / 0x100;
    assert x == x % 0x100 + 0x100 * q1;
    assert q1 == q1 % 0x100 + 0x100 * q2;
    assert q2 == q2 % 0x100 + 0x100 * q3;
  }

  /** The C `int` whose bits are `x`, and back. */
  function ToI32(x: u32): (v: i32)
  {
    if x < 0x8000_0000 then x else x - 0x1_0000_0000
  }

  function FromI32(v: i32): (x: u32)
  {
    if v >= 0 then v else v + 0x1_0000_0000
  }

  function Zeros(n: nat): (r: seq<byte>)
    ensures |r| == n && forall k :: 0 <= k < n ==> r[k] == 0
  {
    seq(n, _ => 0)
  }

  // ---------------------------------------------------------------- superblock

  /** Bytes of the superblock after the three counts. */
  const PADDING: nat := BLOCK_SIZE - 12

  function EncodeSuper(s: Super): (r: seq<byte>)
    requires |s.padding| == PADDING
    ensures |r| == BLOCK_SIZE
  {
    EncodeU32(s.magic) + EncodeU32(FromI32(s.numberBlocks)) + EncodeU32(FromI32(s.nFatBlocks)) + s.padding
  }

  function DecodeSuper(b: seq<byte>): (s: Super)
    requires |b| == BLOCK_SIZE
    ensures |s.padding| == PADDING
  {
    Super(DecodeU32(b[0..4]), ToI32(DecodeU32(b[4..8])), ToI32(DecodeU32(b[8..12])), b[12..])
  }

  /** Reading back the block `fat_format` wrote gives the same superblock. */
  lemma SuperRoundTrip(s: Super)
    requires |s.padding| == PADDING
    ensures DecodeSuper(EncodeSuper(s)) == s
  {
    var b := EncodeSuper(s);
    assert b[0..4] == EncodeU32(s.magic);
    assert b[4..8] == EncodeU32(FromI32(s.numberBlocks));
    assert b[8..12] == EncodeU32(FromI32(s.nFatBlocks));
    assert b[12..] == s.padding;
    U32RoundTrip(s.magic);
    U32RoundTrip(FromI32(s.numberBlocks));
    U32RoundTrip(FromI32(s.nFatBlocks));
  }

  // ------------------------------------------------------------ directory items

  /** The C string held in a fixed-width name field: the bytes before the first NUL. */
  function TakeName(s: seq<byte>): (r: CString)
    ensures |r| <= |s| && r == s[..|r|]
    ensures |r| < |s| ==> s[|r|] == 0
  {
    if s == [] || s[0] == 0 then [] else [s[0]] + TakeName(s[1..])
  }

  /** `strncpy` pads a short name with NULs; reading the field gives the name back. */
  lemma {:induction false} TakeNamePadded(name: CString, k: nat)
    ensures TakeName(name + Zeros(k)) == name
  {
    if name == [] {
      assert k > 0 ==> (name + Zeros(k))[0] == 0;
    } else {
      assert (name + Zeros(k))[1..] == name[1..] + Zeros(k);
      TakeNamePadded(name[1..], k);
    }
  }

  predicate Storable(e: DirItem)
  {
    |e.name| <= NAME_FIELD
  }

  function EncodeItem(e: DirItem): (r: seq<byte>)
    requires Storable(e)
    ensures |r| == ITEM_SIZE
  {
    [if e.used then 1 else 0] + e.name + Zeros(NAME_FIELD - |e.name|)
      + EncodeU32(e.length) + EncodeU32(e.first)
  }

  function DecodeItem(b: seq<byte>): (e: DirItem)
    requires |b| == ITEM_SIZE
    ensures Storable(e)
  {
    DirItem(b[0] != 0, TakeName(b[1..8]), DecodeU32(b[8..12]), DecodeU32(b[12..16]))
  }

  lemma ItemRoundTrip(e: DirItem)
    requires Storable(e)
    ensures DecodeItem(EncodeItem(e)) == e
  {
    var b := EncodeItem(e);
    var head := [if e.used then 1 else 0] + e.name + Zeros(NAME_FIELD - |e.name|);
    assert |head| == 8 && b == head + EncodeU32(e.length) + EncodeU32(e.first);
    assert b[1..8] == e.name + Zeros(NAME_FIELD - |e.name|);
    TakeNamePadded(e.name, NAME_FIELD - |e.name|);
    assert b[8..12] == EncodeU32(e.length);
    assert b[12..16] == EncodeU32(e.first) by {
      forall q | 0 <= q < 4
        ensures b[12 + q] == EncodeU32(e.first)[q]
      {
      }
    }
    U32RoundTrip(e.length);
    U32RoundTrip(e.first);
  }

  // ----------------------------------------------------------- directory block

  predicate StorableDir(d: seq<DirItem>)
  {
    |d| == N_ITEMS && forall j :: 0 <= j < |d| ==> Storable(d[j])
  }

  /** The directory block: item `j` occupies bytes [16 j, 16 j + 16). */
  function EncodeDir(d: seq<DirItem>): (r: seq<byte>)
    requires StorableDir(d)
    ensures |r| == BLOCK_SIZE
  {
    seq(BLOCK_SIZE, p requires 0 <= p < BLOCK_SIZE => EncodeItem(d[p / 16])[p % 16])
  }

  function DecodeDir(b: seq<byte>): (d: seq<DirItem>)
    requires |b| == BLOCK_SIZE
    ensures StorableDir(d)
  {
    seq(N_ITEMS, j requires 0 <= j < N_ITEMS => DecodeItem(b[16 * j .. 16 * j + ITEM_SIZE]))
  }

  lemma DirItemSlice(d: seq<DirItem>, j: nat)
    requires StorableDir(d) && j < N_ITEMS
    ensures EncodeDir(d)[16 * j .. 16 * j + ITEM_SIZE] == EncodeItem(d[j])
  {
    var b := EncodeDir(d);
    forall q | 0 <= q < ITEM_SIZE
      ensures b[16 * j + q] == EncodeItem(d[j])[q]
    {
      var p := 16 * j + q;
      assert p / 16 == j && p % 16 == q;
    }
  }

  /** Reading back the directory block gives the directory that was written. */
  lemma DirRoundTrip(d: seq<DirItem>)
    requires StorableDir(d)
    ensures DecodeDir(EncodeDir(d)) == d
  {
    forall j | 0 <= j < N_ITEMS
      ensures DecodeDir(EncodeDir(d))[j] == d[j]
    {
      DirItemSlice(d, j);
      ItemRoundTrip(d[j]);
    }
  }

  // ---------------------------------------------------------------- FAT blocks

  /** FAT block `TABLE + i` holds entries [i * 256, (i + 1) * 256) of the table. */
  function EncodeFatBlock(f: seq<u32>, i: nat): (r: seq<byte>)
    requires (i + 1) * 256 <= |f|
    ensures |r| == BLOCK_SIZE
  {
    seq(BLOCK_SIZE, p requires 0 <= p < BLOCK_SIZE => EncodeU32(f[i * 256 + p / 4])[p % 4])
  }

  /** Entry `k` of a FAT block image. */
  function DecodeFatEntry(b: seq<byte>, k: nat): (e: u32)
    requires |b| == BLOCK_SIZE && k < ENTRIES_PER_BLOCK
  {
    DecodeU32(b[4 * k .. 4 * k + 4])
  }

  lemma FatBlockRoundTrip(f: seq<u32>, i: nat, k: nat)
    requires (i + 1) * 256 <= |f| && k < ENTRIES_PER_BLOCK
    ensures DecodeFatEntry(EncodeFatBlock(f, i), k) == f[i * 256 + k]
  {
    var b := EncodeFatBlock(f, i);
    var w := f[i * 256 + k];
    forall q | 0 <= q < 4
      ensures b[4 * k + q] == EncodeU32(w)[q]
    {
      var p := 4 * k + q;
      assert p / 4 == k && p % 4 == q;
    }
    assert b[4 * k .. 4 * k + 4] == EncodeU32(w);
    U32RoundTrip(w);
  }

  /** Entry `b` of the first `n` FAT blocks lies in block `b / 256`, one of the `n`. */
  lemma DivBelow(b: nat, n: nat)
    requires b < n * 256
    ensures b / 256 < n && (b / 256 + 1) * 256 <= n * 256
  {
  }

  /** Reading the first `n` FAT blocks written from table `f` back gives the
      first `n * 256` entries of `f`. */
  lemma FatReload(disk: seq<seq<byte>>, f: seq<u32>, g: seq<u32>, n: nat)
    requires |g| == |f| && n * 256 <= |f| && 2 + n <= |disk|
    requires forall x :: 0 <= x < |disk| ==> |disk[x]| == BLOCK_SIZE
    requires forall x :: 2 <= x < 2 + n ==> disk[x] == EncodeFatBlock(f, x - 2)
    requires forall b :: 0 <= b < n * 256 ==> g[b] == DecodeFatEntry(disk[2 + b / 256], b % 256)
    ensures forall b :: 0 <= b < n * 256 ==> g[b] == f[b]
  {
    forall b | 0 <= b < n * 256
      ensures g[b] == f[b]
    {
      DivBelow(b, n);
      var i := b / 256;
      assert disk[2 + i] == EncodeFatBlock(f, i);
      FatBlockRoundTrip(f, i, b % 256);
    }
  }
}

=== FILE: fat.dfy ===
/** The filesystem of fat.c: the globals `sb`, `dir`, `fat` and `mountState`
    as the fields of one object, over a store of fixed-size blocks that stands
    for `ds_read`/`ds_write`. Each operation of fat.c is a method here. */
module Fat {
  import opened FatTypes
  import opened Encoding
  import opened FatSpec

  class FileSystem {
    var sb: Super
    const dir: array<DirItem>
    const fat: array<u32>
    var mounted: bool

    /** The block store; `ds_write` replaces one of its blocks. */
    var disk: seq<seq<byte>>
    /** `ds_size()`: the number of blocks of the store. */
    const size: nat

    /** The chain owned by each directory slot (empty for unused slots). */
    ghost var chains: seq<seq<nat>>

    /** Shape of the state that holds before and after every call. */
    ghost predicate Inv()
      reads this`sb, this`chains, this`mounted, dir, fat, this`disk
    {
      Shape() && DiskOk()
    }

    /** Shape of the in-memory globals. */
    ghost predicate Shape()
      reads this`sb, this`chains, this`mounted, dir, fat
    {
      dir.Length == N_ITEMS && fat.Length == FAT_ENTRIES &&
      size <= FAT_ENTRIES &&
      StorableDir(dir[..]) && |sb.padding| == PADDING && |chains| == N_ITEMS &&
      (mounted ==> SuperSane())
    }

    /** Every block of the store has `BLOCK_SIZE` bytes. */
    ghost predicate DiskOk()
      reads this`disk
    {
      |disk| == size && forall b :: 0 <= b < size ==> |disk[b]| == BLOCK_SIZE
    }

    /** What every `ds_read`/`ds_write` issued from the superblock's counts
        needs: the counts describe this store and the FAT fits its buffer. */
    ghost predicate SuperSane()
      reads this`sb
    {
      sb.numberBlocks == size && 0 <= sb.nFatBlocks &&
      TABLE + sb.nFatBlocks <= size &&
      sb.nFatBlocks * 256 <= FAT_ENTRIES
    }

    /** The filesystem invariant of FatSpec.WF over the current state. */
    ghost predicate WellFormed()
      reads this`sb, this`chains, this`mounted, dir, fat
    {
      Shape() && WF(sb, dir[..], fat[..], chains, size)
    }

    /** `TABLE + sb.n_fat_blocks`, where the first-fit scans start. */
    function FirstDataBlock(): nat
      reads this`sb
      requires 0 <= sb.nFatBlocks
    {
      TABLE + sb.nFatBlocks
    }

    /** The metadata blocks hold the current directory and FAT. */
    ghost predicate Flushed()
      reads this`sb, this`chains, this`mounted, dir, fat, this`disk
    {
      Inv() && SuperSane() &&
      disk[DIR] == EncodeDir(dir[..]) &&
      forall j :: 0 <= j < sb.nFatBlocks ==> disk[TABLE + j] == EncodeFatBlock(fat[..], j)
    }

    /** Once mounted, every data block that is not FREE is on some file's chain. */
    ghost predicate NoLeak()
      reads this`sb, this`chains, this`mounted, dir, fat
    {
      mounted && Shape() ==> Accounted(fat[..], chains, FirstDataBlock(), size)
    }

    /** The bytes of the file in slot `i`: the first `length` bytes of its chain's stream. */
    ghost function FileData(i: nat): (s: seq<byte>)
      reads this`sb, this`chains, this`mounted, dir, fat, this`disk
      requires WellFormed() && i < N_ITEMS && dir[i].used
      ensures |s| == dir[i].length as int
    {
      assert EntryOk(dir[..][i], fat[..], size, chains[i]);
      Stream(disk, chains[i])[..dir[i].length]
    }

    /** Program start over a store of `|store|` blocks: the globals are zero. */
    constructor (store: seq<seq<byte>>)
      requires |store| <= FAT_ENTRIES
      requires forall b :: 0 <= b < |store| ==> |store[b]| == BLOCK_SIZE
      ensures Inv() && !mounted && disk == store && size == |store|
      ensures fresh(dir) && fresh(fat)
      ensures forall j :: 0 <= j < N_ITEMS ==> dir[j] == DirItem(false, [], 0, 0)
      ensures forall b :: 0 <= b < FAT_ENTRIES ==> fat[b] == FREE
    {
      sb := Super(0, 0, 0, Zeros(PADDING));
      dir := new DirItem[N_ITEMS](_ => DirItem(false, [], 0, 0));
      fat := new u32[FAT_ENTRIES](_ => FREE);
      mounted := false;
      disk := store;
      size := |store|;
      chains := seq(N_ITEMS, _ => []);
    }

    // ------------------------------------------------------------------ scans

    /** The directory lookup loop shared by delete, getsize, read and write. */
    method FindEntry(name: seq<byte>) returns (idx: int)
      requires Shape()
      ensures idx == Find(dir[..], name)
    {
      var k := 0;
      while k < N_ITEMS
        invariant 0 <= k <= N_ITEMS
        invariant forall j :: 0 <= j < k ==> !(dir[j].used && dir[j].name == name)
      {
        if dir[k].used && dir[k].name == name {
          return k;
        }
        k := k + 1;
      }
      return -1;
    }

    /** First-fit choice of a directory slot (fat.c:192-198). */
    method FindFreeSlot() returns (idx: int)
      requires Shape()
      ensures idx == FirstUnused(dir[..])
    {
      var k := 0;
      while k < N_ITEMS
        invariant 0 <= k <= N_ITEMS
        invariant forall j :: 0 <= j < k ==> dir[j].used
      {
        if !dir[k].used {
          return k;
        }
        k := k + 1;
      }
      return -1;
    }

    /** First-fit choice of a data block: the lowest FREE block at or above
        `TABLE + n_fat_blocks`, or -1. */
    method FindFreeBlock() returns (b: int)
      requires Shape() && SuperSane()
      ensures var free := FreeBlocks(fat[..], FirstDataBlock(), size);
              b == if free == [] then -1 else free[0]
    {
      var k := FirstDataBlock();
      while k < sb.numberBlocks
        invariant FirstDataBlock() <= k <= size
        invariant FreeBlocks(fat[..], FirstDataBlock(), size) == FreeBlocks(fat[..], k, size)
      {
        if fat[k] == FREE {
          return k;
        }
        k := k + 1;
      }
      return -1;
    }

    /** Number of FREE data blocks (fat.c:420-423). */
    method CountFree() returns (count: nat)
      requires Shape() && SuperSane()
      ensures count == |FreeBlocks(fat[..], FirstDataBlock(), size)|
    {
      count := 0;
      var k := FirstDataBlock();
      while k < sb.numberBlocks
        invariant FirstDataBlock() <= k <= size
        invariant count + |FreeBlocks(fat[..], k, size)| == |FreeBlocks(fat[..], FirstDataBlock(), size)|
      {
        if fat[k] == FREE {
          count := count + 1;
        }
        k := k + 1;
      }
    }

    /** Length of the chain starting at `start` (fat.c:409-417): the walk has
        no hop bound, so it is only called on a well-formed chain `c`. */
    method CountChain(start: u32, ghost c: seq<nat>) returns (r: Result<nat>)
      requires Shape() && SuperSane()
      requires IsChain(fat[..], FirstDataBlock(), size, start, c)
      ensures r == Ok(|c|)
    {
      var count := 0;
      var temp := start;
      while temp != EOFF
        invariant 0 <= count <= |c|
        invariant temp as nat == if count < |c| then c[count] else EOFF as nat
        decreases |c| - count
      {
        if temp as int >= sb.numberBlocks {
          return Err(EINVAL);
        }
        count := count + 1;
        temp := fat[temp];
      }
      return Ok(count);
    }

    /** Writes every FAT block back to the store (fat.c:91-94 and the flushes
        at the end of create, delete and write). */
    method FlushFat()
      requires Inv() && SuperSane()
      modifies this`disk
      ensures Inv()
      ensures forall j :: 0 <= j < sb.nFatBlocks ==> disk[TABLE + j] == EncodeFatBlock(fat[..], j)
      ensures forall b :: 0 <= b < size && !(TABLE <= b < TABLE + sb.nFatBlocks) ==> disk[b] == old(disk[b])
    {
      ghost var image := fat[..];
      var k := 0;
      while k < sb.nFatBlocks
        invariant 0 <= k <= sb.nFatBlocks
        invariant Inv() && fat[..] == image
        invariant forall j :: 0 <= j < k ==> disk[TABLE + j] == EncodeFatBlock(image, j)
        invariant forall b :: 0 <= b < size && !(TABLE <= b < TABLE + k) ==> disk[b] == old(disk[b])
      {
        disk := disk[TABLE + k := EncodeFatBlock(fat[..], k)];
        k := k + 1;
      }
    }

    // ------------------------------------------------------------ format, mount

    /** The loop of fat.c:70-72 that marks every directory entry unused. */
    method MarkAllUnused()
      requires dir.Length == N_ITEMS && StorableDir(dir[..])
      modifies dir
      ensures StorableDir(dir[..])
      ensures forall j :: 0 <= j < N_ITEMS ==> dir[j] == old(dir[j]).(used := false)
    {
      var k := 0;
      while k < N_ITEMS
        invariant 0 <= k <= N_ITEMS
        invariant forall j :: 0 <= j < N_ITEMS ==> dir[j] == if j < k then old(dir[j]).(used := false) else old(dir[j])
      {
        dir[k] := dir[k].(used := false);
        k := k + 1;
      }
    }

    /** The loops of fat.c:76-87: every block of the store FREE, then the
        superblock, directory and FAT blocks BUSY. */
    method ResetFat()
      requires fat.Length == FAT_ENTRIES && size <= FAT_ENTRIES
      requires sb.numberBlocks == size && sb.nFatBlocks == FatBlocks(size)
      requires DataStart(size) <= size
      modifies fat
      ensures forall b :: 0 <= b < FAT_ENTRIES ==>
        fat[b] == if b < DataStart(size) then BUSY else if b < size then FREE else old(fat[b])
    {
      var k := 0;
      while k < sb.numberBlocks
        invariant 0 <= k <= size
        invariant forall b :: 0 <= b < FAT_ENTRIES ==> fat[b] == if b < k then FREE else old(fat[b])
      {
        fat[k] := FREE;
        k := k + 1;
      }
      fat[SUPER] := BUSY;
      fat[DIR] := BUSY;
      k := 0;
      while k < sb.nFatBlocks
        invariant 0 <= k <= sb.nFatBlocks
        invariant forall b :: 0 <= b < FAT_ENTRIES ==>
          fat[b] == if b < TABLE + k then BUSY else if b < size then FREE else old(fat[b])
      {
        fat[TABLE + k] := BUSY;
        k := k + 1;
      }
    }

    /** `fat_format` (fat.c:55-96). The store must be large enough for the
        superblock, directory and FAT blocks, which `ds_write` aborts on otherwise. */
    method Format() returns (r: Result<()>)
      requires Inv()
      requires DataStart(size) <= size
      modifies this`sb, this`chains, dir, fat, this`disk
      ensures Inv()
      ensures r == if mounted then Err(EBUSY) else Ok(())
      ensures mounted ==> sb == old(sb) && chains == old(chains) && unchanged(dir, fat) && disk == old(disk)
      ensures !mounted ==>
        sb == Super(MAGIC_N, size, FatBlocks(size), old(sb.padding)) &&
        (forall j :: 0 <= j < N_ITEMS ==> dir[j] == old(dir[j]).(used := false)) &&
        (forall b :: 0 <= b < FAT_ENTRIES ==>
           fat[b] == if b < DataStart(size) then BUSY else if b < size then FREE else old(fat[b])) &&
        disk[SUPER] == EncodeSuper(sb) && Flushed() &&
        (forall b :: DataStart(size) <= b < size ==> disk[b] == old(disk[b])) &&
        WellFormed() && Accounted(fat[..], chains, DataStart(size), size)
    {
      if mounted {
        return Err(EBUSY);
      }
      var nb := size;
      sb := Super(MAGIC_N, nb, FatBlocks(nb), sb.padding);
      disk := disk[SUPER := EncodeSuper(sb)];

      MarkAllUnused();
      disk := disk[DIR := EncodeDir(dir[..])];
      ResetFat();
      chains := seq(N_ITEMS, _ => []);
      FormattedWF(sb, dir[..], fat[..], nb);
      AccountedFormatted(fat[..], chains, DataStart(nb), nb);
      FlushFat();
      return Ok(());
    }

    /** The chains of the used entries of a loaded directory. */
    ghost function LoadedChains(): seq<seq<nat>>
      reads dir, fat
      requires dir.Length == N_ITEMS && size <= fat.Length
    {
      seq(N_ITEMS, j requires 0 <= j < N_ITEMS reads dir, fat =>
        if dir[j].used then ChainOf(fat[..], size, dir[j].first, size) else [])
    }

    /** The FAT as `fat_mount` reads it: entry `b` of the first `n_fat_blocks`
        blocks from FAT block `b / 256`, the rest of the buffer untouched. */
    ghost predicate FatLoaded(f0: seq<u32>)
      reads this`sb, this`chains, this`mounted, dir, fat, this`disk
      requires Inv() && SuperSane()
    {
      |f0| == FAT_ENTRIES &&
      forall b :: 0 <= b < FAT_ENTRIES ==>
        fat[b] == if b < sb.nFatBlocks * 256 then DecodeFatEntry(disk[TABLE + b / 256], b % 256) else f0[b]
    }

    /** The loop of `fat_mount` that reads the FAT blocks into `fat` (fat.c:152-154). */
    method LoadFat()
      requires Inv() && SuperSane()
      modifies fat
      ensures FatLoaded(old(fat[..]))
    {
      var k := 0;
      while k < sb.nFatBlocks
        invariant 0 <= k <= sb.nFatBlocks
        invariant forall b :: 0 <= b < FAT_ENTRIES ==>
          fat[b] == if b < k * 256 then DecodeFatEntry(disk[TABLE + b / 256], b % 256) else old(fat[b])
      {
        var block := disk[TABLE + k];
        forall q | k * 256 <= q < (k + 1) * 256 {
          fat[q] := DecodeFatEntry(block, q - k * 256);
        }
        k := k + 1;
      }
    }

    /** `fat_mount` (fat.c:143-166). A superblock with the right magic number
        must describe this store: its FAT blocks are read with `ds_read` into
        the fixed FAT buffer. */
    method Mount() returns (r: Result<()>)
      requires Inv() && 0 < size
      requires var s := DecodeSuper(disk[SUPER]);
        s.magic == MAGIC_N ==>
          s.numberBlocks == size && 0 <= s.nFatBlocks && TABLE + s.nFatBlocks <= size &&
          s.nFatBlocks * 256 <= FAT_ENTRIES
      modifies this`sb, this`mounted, this`chains, dir, fat
      ensures Inv()
      ensures old(mounted) ==> r == Err(EBUSY) && mounted && sb == old(sb) && chains == old(chains) && unchanged(dir, fat)
      ensures !old(mounted) ==> sb == DecodeSuper(disk[SUPER])
      ensures !old(mounted) && sb.magic != MAGIC_N ==>
        r == Err(EINVAL) && !mounted && unchanged(dir, fat) && chains == old(chains)
      ensures !old(mounted) && sb.magic == MAGIC_N ==>
        r == Ok(()) && mounted && dir[..] == DecodeDir(disk[DIR]) && FatLoaded(old(fat[..])) &&
        chains == LoadedChains()
    {
      if mounted {
        return Err(EBUSY);
      }
      sb := DecodeSuper(disk[SUPER]);
      if sb.magic != MAGIC_N {
        return Err(EINVAL);
      }
      LoadFat();
      var items := DecodeDir(disk[DIR]);
      forall j | 0 <= j < N_ITEMS {
        dir[j] := items[j];
      }
      mounted := true;
      chains := LoadedChains();
      return Ok(());
    }

    // ------------------------------------------------------ create, delete, size

    /** Every block other than the directory and FAT blocks keeps its contents. */
    ghost predicate DataUnchanged(old_disk: seq<seq<byte>>)
      reads this`sb, this`disk
      requires SuperSane()
    {
      |old_disk| == |disk| &&
      forall b :: 0 <= b < |disk| && b != DIR && !(TABLE <= b < TABLE + sb.nFatBlocks) ==> disk[b] == old_disk[b]
    }

    /** The checks of `fat_create` (fat.c:171-215): the error it reports, or the
        directory slot and the data block it is going to use. */
    method PlanCreate(name: CString) returns (r: Result<(nat, nat)>)
      requires Inv()
      ensures r == if !mounted || |name| > MAX_LETTERS then Err(EINVAL)
                   else if Find(dir[..], name) != -1 then Err(EEXIST)
                   else if FirstUnused(dir[..]) == -1 then Err(ENOSPC)
                   else if FreeBlocks(fat[..], FirstDataBlock(), size) == [] then Err(ENOSPC)
                   else Ok((FirstUnused(dir[..]) as nat, FreeBlocks(fat[..], FirstDataBlock(), size)[0]))
    {
      if !mounted {
        return Err(EINVAL);
      }
      if |name| > MAX_LETTERS {
        return Err(EINVAL);
      }
      var existing := FindEntry(name);
      if existing != -1 {
        return Err(EEXIST);
      }
      var slot := FindFreeSlot();
      if slot == -1 {
        return Err(ENOSPC);
      }
      var b := FindFreeBlock();
      if b == -1 {
        return Err(ENOSPC);
      }
      return Ok((slot, b));
    }

    /** `fat_create` (fat.c:169-234): the first unused slot gets the name, length
        0 and, as its one-block chain, the first FREE data block. */
    method Create(name: CString) returns (r: Result<()>)
      requires Inv()
      modifies this`chains, dir, fat, this`disk
      ensures Inv()
      ensures r == if !mounted || |name| > MAX_LETTERS then Err(EINVAL)
                   else if Find(old(dir[..]), name) != -1 then Err(EEXIST)
                   else if FirstUnused(old(dir[..])) == -1 then Err(ENOSPC)
                   else if FreeBlocks(old(fat[..]), FirstDataBlock(), size) == [] then Err(ENOSPC)
                   else Ok(())
      ensures r.Err? ==> unchanged(dir, fat) && disk == old(disk) && chains == old(chains)
      ensures r.Ok? ==>
        var s := FirstUnused(old(dir[..]));
        var b := FreeBlocks(old(fat[..]), FirstDataBlock(), size)[0];
        dir[..] == old(dir[..])[s := DirItem(true, name, 0, b)] &&
        fat[..] == old(fat[..])[b := EOFF] &&
        chains == old(chains)[s := [b]] &&
        Flushed() && DataUnchanged(old(disk))
      ensures old(WellFormed()) ==> WellFormed()
      ensures old(WellFormed() && NoLeak()) ==> NoLeak()
    {
      var plan := PlanCreate(name);
      if plan.Err? {
        return Err(plan.error);
      }
      FreeBlocksAreFree(fat[..], FirstDataBlock(), size);
      if WellFormed() && NoLeak() {
        assert EntryOk(dir[..][plan.value.0], fat[..], size, chains[plan.value.0]);
        AccountedTake(fat[..], chains, FirstDataBlock(), size, plan.value.0, plan.value.1);
      }
      AddEntry(plan.value.0, name, plan.value.1);
      return Ok(());
    }

    /** The commit step of `fat_create` (fat.c:217-231): the entry at `slot`
        takes `name` and the one-block chain `[b]`, then the directory and the
        FAT are written back. */
    method AddEntry(slot: nat, name: CString, b: nat)
      requires Inv() && mounted && slot < N_ITEMS && !dir[slot].used && |name| <= MAX_LETTERS
      requires Find(dir[..], name) == -1
      requires FirstDataBlock() <= b < size && fat[b] == FREE
      modifies this`chains, dir, fat, this`disk
      ensures Inv()
      ensures dir[..] == old(dir[..])[slot := DirItem(true, name, 0, b)]
      ensures fat[..] == old(fat[..])[b := EOFF]
      ensures chains == old(chains)[slot := [b]]
      ensures Flushed() && DataUnchanged(old(disk))
      ensures old(WellFormed()) ==> WellFormed()
    {
      var item := DirItem(true, name, 0, b);
      if WellFormed() {
        assert EntryOk(dir[slot], fat[..], size, chains[slot]);
        NewChainWF(sb, dir[..], fat[..], chains, size, slot, item, b);
      }
      fat[b] := EOFF;
      dir[slot] := item;
      chains := chains[slot := [b]];
      disk := disk[DIR := EncodeDir(dir[..])];
      FlushFat();
    }

    /** `fat_delete` (fat.c:237-280): every block of the file's chain becomes
        FREE and its entry unused. The walk has no hop bound, so the mounted
        state must be well-formed. */
    method Delete(name: CString) returns (r: Result<()>)
      requires Inv() && (mounted ==> WellFormed())
      modifies this`chains, dir, fat, this`disk
      ensures Inv() && (mounted ==> WellFormed())
      ensures r == if !mounted || |name| > MAX_LETTERS then Err(EINVAL)
                   else if Find(old(dir[..]), name) == -1 then Err(ENOENT)
                   else Ok(())
      ensures r.Err? ==> unchanged(dir, fat) && disk == old(disk) && chains == old(chains)
      ensures r.Ok? ==>
        var i := Find(old(dir[..]), name);
        dir[..] == old(dir[..])[i := old(dir[i]).(used := false)] &&
        (forall b :: 0 <= b < FAT_ENTRIES ==> fat[b] == if b in old(chains[i]) then FREE else old(fat[b])) &&
        chains == old(chains)[i := []] &&
        Find(dir[..], name) == -1 &&
        Flushed() && DataUnchanged(old(disk))
      ensures old(NoLeak()) ==> NoLeak()
    {
      if !mounted {
        return Err(EINVAL);
      }
      if |name| > MAX_LETTERS {
        return Err(EINVAL);
      }
      var i := FindEntry(name);
      if i == -1 {
        return Err(ENOENT);
      }
      ghost var f0, ch0 := fat[..], chains;
      RemoveEntry(i);
      if old(NoLeak()) {
        AccountedRelease(f0, fat[..], ch0, FirstDataBlock(), size, i);
      }
      return Ok(());
    }

    /** The commit step of `fat_delete` (fat.c:261-277): the chain of entry `i`
        is freed, the entry marked unused, and the FAT and directory written back. */
    method RemoveEntry(i: nat)
      requires WellFormed() && DiskOk() && mounted && i < N_ITEMS && dir[i].used
      modifies this`chains, dir, fat, this`disk
      ensures WellFormed() && DiskOk()
      ensures dir[..] == old(dir[..])[i := old(dir[i]).(used := false)]
      ensures forall b :: 0 <= b < FAT_ENTRIES ==> fat[b] == if b in old(chains[i]) then FREE else old(fat[b])
      ensures chains == old(chains)[i := []]
      ensures Find(dir[..], old(dir[i].name)) == -1
      ensures Flushed() && DataUnchanged(old(disk))
    {
      ghost var f0 := fat[..];
      FreeChain(i);
      ReleaseWF(sb, dir[..], f0, chains, size, i, fat[..]);
      ReleasedNameIsGone(sb, dir[..], f0, chains, size, i);
      dir[i] := dir[i].(used := false);
      chains := chains[i := []];
      FlushFat();
      disk := disk[DIR := EncodeDir(dir[..])];
    }

    /** The loop of `fat_delete` that frees the blocks of entry `i` (fat.c:261-267). */
    method FreeChain(i: nat)
      requires WellFormed() && i < N_ITEMS && dir[i].used
      modifies fat
      ensures forall b :: 0 <= b < FAT_ENTRIES ==> fat[b] == if b in chains[i] then FREE else old(fat[b])
    {
      ghost var c := chains[i];
      assert EntryOk(dir[i], fat[..], size, c);
      var aux := dir[i].first;
      ghost var k := 0;
      while aux != EOFF && aux as int < sb.numberBlocks
        invariant 0 <= k <= |c|
        invariant aux as nat == if k < |c| then c[k] else EOFF as nat
        invariant forall b :: 0 <= b < FAT_ENTRIES ==> fat[b] == if b in c[..k] then FREE else old(fat[b])
        decreases |c| - k
      {
        var next := fat[aux];
        fat[aux] := FREE;
        aux := next;
        k := k + 1;
      }
      assert c[..k] == c;
    }

    /** `fat_getsize` (fat.c:283-307): the length of the named file. */
    method GetSize(name: CString) returns (r: Result<nat>)
      requires Inv()
      ensures r == if |name| > MAX_LETTERS || !mounted then Err(EINVAL)
                   else if Find(dir[..], name) == -1 then Err(ENOENT)
                   else Ok(dir[Find(dir[..], name)].length as nat)
    {
      if |name| > MAX_LETTERS {
        return Err(EINVAL);
      }
      if !mounted {
        return Err(EINVAL);
      }
      var i := FindEntry(name);
      if i == -1 {
        return Err(ENOENT);
      }
      return Ok(dir[i].length as nat);
    }

    // ---------------------------------------------------------------------- read

    /** The block the read of byte `offset` starts in, after the skip walk of
        `fat_read`, is inside the store and not EOFF. */
    ghost predicate Reaches(first: u32, offset: nat)
      reads fat
      requires fat.Length == FAT_ENTRIES && size <= FAT_ENTRIES
    {
      var w := Walk(fat[..], size, first, offset / 1024);
      0 <= w < size && w != EOFF as int
    }

    /** The skip walk of `fat_read` (fat.c:351-356): follows `skip` links from
        `first`, and gives up, reading nothing, when it meets EOFF or a block
        outside the store first. */
    method Seek(first: u32, skip: nat) returns (current: u32, found: bool)
      requires Inv() && SuperSane()
      ensures found ==> current as int == Walk(fat[..], size, first, skip)
      ensures !found ==> Walk(fat[..], size, first, skip) == -1
    {
      current := first;
      var k := 0;
      while k < skip
        invariant 0 <= k <= skip
        invariant current as int == Walk(fat[..], size, first, k)
      {
        if current == EOFF || current as int >= sb.numberBlocks {
          WalkSplit(fat[..], size, first, k, skip - k);
          return current, false;
        }
        WalkSplit(fat[..], size, first, k, 1);
        current := fat[current];
        k := k + 1;
      }
      return current, true;
    }

    /** The read loop of `fat_read` (fat.c:358-377): up to `readable` bytes
        starting at byte `offset % BLOCK_SIZE` of block `current`, following the
        FAT. When `current` is block `m` of a well-formed chain `c` and `offset`
        falls in that block, the bytes are those of the stream of `c`. */
    method ReadFrom(current: u32, offset: nat, readable: nat, ghost c: seq<nat>, ghost m: nat) returns (data: seq<byte>)
      requires Inv() && SuperSane()
      ensures |data| <= readable
      ensures |data| > 0 <==> readable > 0 && (current as int) < size && current != EOFF
      ensures c != [] && IsChain(fat[..], FirstDataBlock(), size, c[0], c) &&
              m == offset / 1024 && m < |c| && current as nat == c[m] && offset + readable <= |c| * 1024 ==>
        data == Stream(disk, c)[offset .. offset + readable]
    {
      ghost var wf := c != [] && IsChain(fat[..], FirstDataBlock(), size, c[0], c) &&
                      m == offset / 1024 && m < |c| && current as nat == c[m] && offset + readable <= |c| * 1024;
      ghost var stream := Stream(disk, c);
      var cur := current;
      data := [];
      ghost var j := m;
      while |data| < readable && cur != EOFF && (cur as int) < sb.numberBlocks
        invariant |data| <= readable
        invariant |data| == 0 ==> j == m && cur == current
        invariant |data| > 0 ==> readable > 0 && (current as int) < size && current != EOFF
        invariant wf && 0 < |data| < readable ==> offset + |data| == j * 1024
        invariant wf && |data| < readable ==> j < |c| && cur as nat == c[j]
        invariant wf ==> data == stream[offset .. offset + |data|]
        decreases readable - |data|
      {
        var block := disk[cur];
        var start := if |data| == 0 then offset % 1024 else 0;
        var remaining := 1024 - start;
        var toCopy := if readable - |data| < remaining then readable - |data| else remaining;
        if wf {
          assert block == disk[c[j]];
          ReadStep(fat[..], disk, c, FirstDataBlock(), size, offset, readable, j, start, toCopy, data);
        }
        data := data + block[start .. start + toCopy];
        cur := fat[cur];
        j := j + 1;
      }
    }

    /** The skip walk and the read loop of `fat_read` together (fat.c:346-377). */
    method ReadBlocks(first: u32, offset: nat, readable: nat, ghost c: seq<nat>) returns (data: seq<byte>)
      requires Inv() && SuperSane()
      ensures |data| <= readable
      ensures |data| > 0 <==> readable > 0 && Reaches(first, offset)
      ensures IsChain(fat[..], FirstDataBlock(), size, first, c) && offset + readable <= |c| * 1024 ==>
        data == Stream(disk, c)[offset .. offset + readable]
    {
      if IsChain(fat[..], FirstDataBlock(), size, first, c) && offset + readable <= |c| * 1024 && readable > 0 {
        WalkChain(fat[..], FirstDataBlock(), size, c, offset / 1024);
      }
      var current, found := Seek(first, offset / 1024);
      if !found {
        return [];
      }
      data := ReadFrom(current, offset, readable, c, offset / 1024);
    }

    /** `fat_read` (fat.c:309-378): up to `n` bytes of the named file from byte
        `offset` on, never past its length. `n` and `offset` are C `int`s whose
        sum does not overflow; `offset` is compared with the unsigned length
        as an unsigned word. */
    method Read(name: CString, n: nat, offset: int) returns (r: Result<seq<byte>>)
      requires Inv()
      requires n <= INT_MAX && -0x8000_0000 <= offset && offset + n <= INT_MAX
      ensures !mounted || |name| > MAX_LETTERS ==> r == Err(EINVAL)
      ensures mounted && |name| <= MAX_LETTERS && Find(dir[..], name) == -1 ==> r == Err(ENOENT)
      ensures mounted && |name| <= MAX_LETTERS && Find(dir[..], name) >= 0 ==>
        var e := dir[Find(dir[..], name)];
        (Unsigned(offset) >= e.length as int || offset < 0 ==> r == Err(EINVAL)) &&
        (0 <= offset < e.length as int ==>
           r.Ok? && |r.value| <= Min(n, e.length as int - offset) &&
           (|r.value| > 0 <==> n > 0 && Reaches(e.first, offset)))
      ensures mounted && |name| <= MAX_LETTERS && Find(dir[..], name) >= 0 && WellFormed() ==>
        var i := Find(dir[..], name);
        0 <= offset < dir[i].length as int ==>
          r == Ok(FileData(i)[offset .. offset + Min(n, dir[i].length as int - offset)])
    {
      if !mounted {
        return Err(EINVAL);
      }
      if |name| > MAX_LETTERS {
        return Err(EINVAL);
      }
      var i := FindEntry(name);
      if i == -1 {
        return Err(ENOENT);
      }
      var e := dir[i];
      // The `int` offset is compared with the unsigned length as unsigned.
      if Unsigned(offset) >= e.length as int {
        return Err(EINVAL);
      }
      // A negative offset gets here only with a length above INT_MAX; the
      // code then reads from a negative block offset, which is not modelled.
      if offset < 0 {
        return Err(EINVAL);
      }
      var readable := if offset + n > e.length as int then e.length as int - offset else n;
      if WellFormed() {
        assert EntryOk(dir[..][i], fat[..], size, chains[i]);
        SliceOfPrefix(Stream(disk, chains[i]), dir[i].length as nat, offset, offset + readable);
      }
      var data := ReadBlocks(e.first, offset, readable, chains[i]);
      return Ok(data);
    }
  
    // --------------------------------------------------------------------- write

    /** What the checks of `fat_write` (fat.c:382-428) decide: the error they
        report, or the directory slot of the file. The space check counts the
        blocks the file has and the FREE data blocks, and asks for
        `ceil((offset + n) / BLOCK_SIZE)`. */
    ghost function CheckWrite(name: CString, n: nat, offset: int): (r: Result<nat>)
      reads this`sb, this`chains, this`mounted, dir, fat
      requires Shape() && (mounted ==> WellFormed())
      ensures r.Ok? ==>
        mounted && |name| <= MAX_LETTERS && WellFormed() && 0 <= offset && r.value < N_ITEMS &&
        dir[r.value].used && dir[r.value].name == name
      ensures r.Err? ==> r.error != EEXIST && r.error != EBUSY
    {
      if !mounted || |name| > MAX_LETTERS || offset < 0 then Err(EINVAL)
      else if Find(dir[..], name) == -1 then Err(ENOENT)
      else if |FreeBlocks(fat[..], FirstDataBlock(), size)| <
              BlocksFor(offset + n) - |chains[Find(dir[..], name)]| then Err(ENOSPC)
      else Ok(Find(dir[..], name) as nat)
    }

    /** The checks of `fat_write` (fat.c:382-428), with their loops: the
        directory lookup, the chain count and the count of FREE data blocks. */
    method PlanWrite(name: CString, n: nat, offset: int) returns (r: Result<nat>)
      requires Inv() && (mounted ==> WellFormed())
      ensures r == CheckWrite(name, n, offset)
    {
      if !mounted || |name| > MAX_LETTERS || offset < 0 {
        return Err(EINVAL);
      }
      var i := FindEntry(name);
      if i == -1 {
        return Err(ENOENT);
      }
      assert EntryOk(dir[i], fat[..], size, chains[i]);
      var totalNeeded := (offset + n + 1023) / 1024;
      var already := CountChain(dir[i].first, chains[i]);
      if already.Err? {
        return Err(EINVAL);
      }
      var free := CountFree();
      if free < totalNeeded - already.value {
        return Err(ENOSPC);
      }
      return Ok(i);
    }

    /** The first-fit search and link of a new tail block (fat.c:455-470 in the
        skip walk, fat.c:496-511 in the write loop): the lowest FREE data block
        is linked after `tail`, the last block of entry `i`'s chain, and marked
        EOFF; -1 when there is none. `c0` and `f0` are the chain and FAT before
        the write began. */
    method Extend(i: nat, tail: u32, ghost c0: seq<nat>, ghost f0: seq<u32>) returns (novo: int)
      requires WellFormed() && mounted && i < N_ITEMS && dir[i].used && chains[i] != []
      requires tail as nat == chains[i][|chains[i]| - 1]
      requires |f0| == FAT_ENTRIES && GrownFrom(fat[..], chains[i], f0, c0, FirstDataBlock(), size)
      modifies fat, this`chains
      ensures WellFormed()
      ensures GrownFrom(fat[..], chains[i], f0, c0, FirstDataBlock(), size)
      ensures novo == -1 ==>
        FreeBlocks(fat[..], FirstDataBlock(), size) == [] && unchanged(fat) && chains == old(chains)
      ensures novo != -1 ==>
        FirstDataBlock() <= novo < size && novo !in old(chains[i]) &&
        chains == old(chains)[i := old(chains[i]) + [novo]]
    {
      novo := FindFreeBlock();
      if novo != -1 {
        Link(i, tail, novo as u32, c0, f0);
      }
    }

    /** Links block `b`, the lowest FREE data block, after `tail` and marks it
        EOFF (fat.c:467-468, fat.c:509-510). */
    method Link(i: nat, tail: u32, b: u32, ghost c0: seq<nat>, ghost f0: seq<u32>)
      requires WellFormed() && mounted && i < N_ITEMS && dir[i].used && chains[i] != []
      requires tail as nat == chains[i][|chains[i]| - 1]
      requires |f0| == FAT_ENTRIES && GrownFrom(fat[..], chains[i], f0, c0, FirstDataBlock(), size)
      requires FreeBlocks(fat[..], FirstDataBlock(), size) != []
      requires b == FreeBlocks(fat[..], FirstDataBlock(), size)[0]
      modifies fat, this`chains
      ensures WellFormed()
      ensures GrownFrom(fat[..], chains[i], f0, c0, FirstDataBlock(), size)
      ensures b !in old(chains[i]) && chains == old(chains)[i := old(chains[i]) + [b]]
    {
      ghost var nb := size;
      ghost var d := dir[..];
      ghost var f := fat[..];
      ghost var c := chains[i];
      ghost var c' := c + [b];
      assert EntryOk(dir[i], f, nb, c);
      ghost var g: seq<u32> := f[tail := b][b := EOFF];
      ghost var ch := chains[i := c'];
      assert FirstDataBlock() == DataStart(nb);
      LinkFreeBlock(sb, d, f, chains, nb, i, b, tail as nat, g, ch, f0, c0);
      fat[tail] := b;
      fat[b] := EOFF;
      assert fat[..] == g && dir[..] == d;
      chains := ch;
      assert chains[i] == c';
    }

    /** One hop of the walks of `fat_write` (fat.c:455-471, fat.c:494-513): from
        `cur`, block `k` of entry `i`'s chain, to the next block, linking the
        lowest FREE data block first when `cur` is the last one; ENOSPC, with
        nothing changed, when there is none. `k'` is always `k + 1`; it is
        passed so that the prover sees the next index as a single term. */
    method Hop(i: nat, cur: u32, ghost k: nat, ghost k': nat, ghost c0: seq<nat>, ghost f0: seq<u32>)
      returns (r: Result<u32>)
      requires WellFormed() && mounted && i < N_ITEMS && dir[i].used
      requires k < |chains[i]| && cur as nat == chains[i][k] && k' == k + 1
      requires |f0| == FAT_ENTRIES && GrownFrom(fat[..], chains[i], f0, c0, FirstDataBlock(), size)
      modifies fat, this`chains
      ensures WellFormed()
      ensures GrownFrom(fat[..], chains[i], f0, c0, FirstDataBlock(), size)
      ensures chains == old(chains)[i := chains[i]]
      ensures r.Err? ==>
        r == Err(ENOSPC) && k' == |old(chains[i])| &&
        old(FreeBlocks(fat[..], FirstDataBlock(), size)) == [] && unchanged(fat) && chains == old(chains)
      ensures r.Ok? ==>
        k' < |chains[i]| && r.value as nat == chains[i][k'] && |chains[i]| == Max(|old(chains[i])|, k' + 1)
      ensures r.Ok? && k' < |old(chains[i])| ==> unchanged(fat) && chains == old(chains)
      ensures r.Ok? && k' == |old(chains[i])| ==>
        FirstDataBlock() <= r.value as nat < size && r.value as nat !in old(chains[i]) &&
        chains[i] == old(chains[i]) + [r.value as nat]
    {
      ChainStep(sb, dir[..], fat[..], chains, size, i, k);
      if fat[cur] == EOFF {
        var novo := Extend(i, cur, c0, f0);
        if novo == -1 {
          return Err(ENOSPC);
        }
        ChainStep(sb, dir[..], fat[..], chains, size, i, k);
      }
      r := Ok(fat[cur]);
    }

    /** The skip walk of `fat_write` (fat.c:449-472): `skip` hops from the first
        block, growing the chain where it ends. It succeeds exactly when the
        chain and the FREE data blocks together reach block `skip`; otherwise
        every FREE data block has been linked when it reports ENOSPC. */
    method SkipTo(i: nat, first: u32, skip: nat, ghost c0: seq<nat>, ghost f0: seq<u32>) returns (r: Result<u32>)
      requires WellFormed() && mounted && i < N_ITEMS && dir[i].used
      requires chains[i] != [] && first as nat == chains[i][0]
      requires |f0| == FAT_ENTRIES && GrownFrom(fat[..], chains[i], f0, c0, FirstDataBlock(), size)
      modifies fat, this`chains
      ensures WellFormed()
      ensures GrownFrom(fat[..], chains[i], f0, c0, FirstDataBlock(), size)
      ensures chains == old(chains)[i := chains[i]]
      ensures r.Ok? <==> |c0| + |FreeBlocks(f0, FirstDataBlock(), size)| >= skip + 1
      ensures r.Ok? ==>
        skip < |chains[i]| && r.value as nat == chains[i][skip] && |chains[i]| == Max(|old(chains[i])|, skip + 1)
      ensures r.Err? ==>
        r.error == ENOSPC && FreeBlocks(fat[..], FirstDataBlock(), size) == []
    {
      var cur := first;
      var k := 0;
      while k < skip
        invariant k <= skip && WellFormed()
        invariant GrownFrom(fat[..], chains[i], f0, c0, FirstDataBlock(), size)
        invariant chains == old(chains)[i := chains[i]]
        invariant k < |chains[i]| && cur as nat == chains[i][k] && |chains[i]| == Max(|old(chains[i])|, k + 1)
      {
        ChainStep(sb, dir[..], fat[..], chains, size, i, k);
        if cur as int >= sb.numberBlocks {
          return Err(EINVAL);
        }
        ghost var prev := chains;
        var k' := k + 1;
        var next := Hop(i, cur, k, k', c0, f0);
        UpdateTwice(old(chains), i, prev[i], chains[i]);
        if next.Err? {
          GrownCount(fat[..], chains[i], f0, c0, FirstDataBlock(), size);
          return next;
        }
        cur := next.value;
        k := k';
      }
      GrownCount(fat[..], chains[i], f0, c0, FirstDataBlock(), size);
      return Ok(cur);
    }

    /** The allocation of a first block for a file that has none (fat.c:431-446). */
    method StartChain(i: nat) returns (r: Result<u32>)
      requires WellFormed() && mounted && i < N_ITEMS && dir[i].used
      modifies fat, dir, this`chains
      ensures WellFormed()
      ensures old(chains[i]) != [] ==>
        r == Ok(dir[i].first) && unchanged(fat, dir) && chains == old(chains)
      ensures old(chains[i]) == [] && old(FreeBlocks(fat[..], FirstDataBlock(), size)) == [] ==>
        r == Err(ENOSPC) && unchanged(fat, dir) && chains == old(chains)
      ensures old(chains[i]) == [] && old(FreeBlocks(fat[..], FirstDataBlock(), size)) != [] ==>
        var b := old(FreeBlocks(fat[..], FirstDataBlock(), size))[0];
        r == Ok(b as u32) && fat[..] == old(fat[..])[b := EOFF] &&
        dir[..] == old(dir[..])[i := old(dir[i]).(first := b as u32)] &&
        chains == old(chains)[i := [b]]
      ensures r.Ok? ==>
        chains[i] != [] && r.value as nat == chains[i][0] &&
        |chains[i]| == Max(|old(chains[i])|, 1) &&
        GrownFrom(fat[..], chains[i], old(fat[..]), old(chains[i]), FirstDataBlock(), size)
    {
      assert EntryOk(dir[i], fat[..], size, chains[i]);
      if dir[i].first == EOFF {
        var b := FindFreeBlock();
        if b == -1 {
          return Err(ENOSPC);
        }
        TakeFirstBlock(i, b);
        return Ok(b as u32);
      }
      ChainBlocksAreNotSentinels(sb, dir[..], fat[..], chains, size, i, 0);
      return Ok(dir[i].first);
    }

    /** Entry `i` takes the lowest FREE data block `b` as its one-block chain. */
    method TakeFirstBlock(i: nat, b: nat)
      requires WellFormed() && mounted && i < N_ITEMS && dir[i].used && chains[i] == []
      requires FreeBlocks(fat[..], FirstDataBlock(), size) != []
      requires b == FreeBlocks(fat[..], FirstDataBlock(), size)[0]
      modifies fat, dir, this`chains
      ensures WellFormed()
      ensures fat[..] == old(fat[..])[b := EOFF]
      ensures dir[..] == old(dir[..])[i := old(dir[i]).(first := b as u32)]
      ensures chains == old(chains)[i := [b]]
      ensures GrownFrom(fat[..], [b], old(fat[..]), [], FirstDataBlock(), size)
    {
      ghost var f := fat[..];
      ghost var g: seq<u32> := f[b := EOFF];
      ghost var ds := FirstDataBlock();
      FreeBlocksAreFree(f, ds, size);
      FreeBlocksTake(f, ds, size, EOFF);
      StartChainWF(sb, dir[..], f, chains, size, i, b as u32);
      GrownStep(f, [], f, [], ds, size, b, g);
      fat[b] := EOFF;
      dir[i] := dir[i].(first := b as u32);
      chains := chains[i := [b]];
      assert fat[..] == g;
    }

    /** The read-modify-write of one block (fat.c:483-493): bytes `src` go to
        block `b` from byte `start` on; `b` is block `j` of the chain `c` being
        written, and the bytes `data` written before end right there. */
    method CopyIn(b: u32, start: nat, src: seq<byte>, ghost c: seq<nat>, ghost j: nat, ghost offset: nat,
                  ghost data: seq<byte>, ghost d0: seq<seq<byte>>)
      requires Shape() && DiskOk() && mounted && (b as int) < size && start + |src| <= 1024
      requires j < |c| && c[j] == b as nat && (forall x, y :: 0 <= x < y < |c| ==> c[x] != c[y])
      requires offset + |data| == j * 1024 + start
      requires Overlaid(disk, d0, c, FirstDataBlock(), offset, data)
      modifies this`disk
      ensures DiskOk()
      ensures disk == old(disk)[b := Patch(old(disk[b]), start, src)]
      ensures Overlaid(disk, d0, c, FirstDataBlock(), offset, data + src)
    {
      var block := disk[b];
      OverlaidWrite(disk, d0, c, FirstDataBlock(), j, start, offset, data, src);
      disk := disk[b := Patch(block, start, src)];
    }

    /** State of the write loop of `fat_write`: `data` lies over the stream of
        entry `i` from byte `offset` on, store `d0` being the store before the
        loop; the chain grew from `c0` lowest-first, no other chain changed since
        `ch0`, and `cur` is block `j` of the chain. */
    ghost predicate Writing(i: nat, c0: seq<nat>, f0: seq<u32>, ch0: seq<seq<nat>>, d0: seq<seq<byte>>,
                            offset: nat, data: seq<byte>, j: nat, cur: u32)
      reads this`sb, this`chains, this`mounted, dir, fat, this`disk
    {
      WellFormed() && DiskOk() && mounted && i < N_ITEMS && dir[i].used && i < |ch0| &&
      |f0| == FAT_ENTRIES && GrownFrom(fat[..], chains[i], f0, c0, FirstDataBlock(), size) &&
      chains == ch0[i := chains[i]] &&
      |chains[i]| == Max(|ch0[i]|, j + 1) && cur as nat == chains[i][j] && (cur as int) < size &&
      Overlaid(disk, d0, chains[i], FirstDataBlock(), offset, data)
    }

    /** One round of the write loop (fat.c:483-513): bytes `src` go to block
        `cur` from byte `start` on, right where the bytes `data` written so far
        end; when `more` bytes follow, the walk moves to the next block of the
        chain, linking the lowest FREE data block first when `cur` is the last
        one (ENOSPC when there is none, which the budget of FREE blocks rules
        out). */
    method WriteStep(i: nat, cur: u32, start: nat, src: seq<byte>, more: bool, ghost c0: seq<nat>,
                     ghost f0: seq<u32>, ghost ch0: seq<seq<nat>>, ghost d0: seq<seq<byte>>,
                     ghost offset: nat, ghost data: seq<byte>, ghost data': seq<byte>, ghost j: nat)
      returns (next: Result<u32>, ghost j': nat)
      requires Writing(i, c0, f0, ch0, d0, offset, data, j, cur) && data' == data + src
      requires start + |src| <= 1024 && offset + |data| == j * 1024 + start
      requires more ==> |c0| + |FreeBlocks(f0, FirstDataBlock(), size)| >= j + 2
      modifies fat, this`disk, this`chains
      ensures next.Ok? && j' == if more then j + 1 else j
      ensures Writing(i, c0, f0, ch0, d0, offset, data', j', next.value)
    {
      ChainStep(sb, dir[..], fat[..], chains, size, i, j);
      CopyIn(cur, start, src, chains[i], j, offset, data, d0);
      if !more {
        return Ok(cur), j;
      }
      j' := j + 1;
      ghost var prev := chains;
      GrownCount(fat[..], chains[i], f0, c0, FirstDataBlock(), size);
      next := Hop(i, cur, j, j', c0, f0);
      UpdateTwice(ch0, i, prev[i], chains[i]);
      if next.Err? {
        return;
      }
      if |prev[i]| == j' {
        OverlaidExtend(disk, d0, prev[i], FirstDataBlock(), next.value as nat, offset, data');
      }
      ChainStep(sb, dir[..], fat[..], chains, size, i, j');
    }

    /** The write loop starts from the block that holds byte `offset`, with
        nothing written yet. */
    lemma WritingStart(i: nat, first: u32, offset: nat, c0: seq<nat>, f0: seq<u32>)
      requires WellFormed() && DiskOk() && mounted && i < N_ITEMS && dir[i].used
      requires offset / 1024 < |chains[i]| && first as nat == chains[i][offset / 1024]
      requires |f0| == FAT_ENTRIES && GrownFrom(fat[..], chains[i], f0, c0, FirstDataBlock(), size)
      ensures Writing(i, c0, f0, chains, disk, offset, [], offset / 1024, first)
    {
      OverlaidStart(disk, chains[i], FirstDataBlock(), offset);
      ChainStep(sb, dir[..], fat[..], chains, size, i, offset / 1024);
    }

    /** The write loop of `fat_write` (fat.c:474-515): copies `buf` into the
        chain of entry `i` from byte `offset` on, block by block, each block
        read, patched and written back, linking the lowest FREE data block
        whenever the chain ends before `buf` does; `stopped` reports the
        return from inside the loop when no FREE data block is left. `first`
        is the block that holds byte `offset`. When the chain and the FREE
        data blocks reach the block of the last byte, all of `buf` is written,
        without that early return, and nothing else of the store changes. */
    method WriteBlocks(i: nat, first: u32, buf: seq<byte>, offset: nat, ghost c0: seq<nat>, ghost f0: seq<u32>)
      returns (r: Result<nat>, stopped: bool, ghost j: nat, ghost last: u32)
      requires WellFormed() && DiskOk() && mounted && i < N_ITEMS && dir[i].used
      requires offset / 1024 < |chains[i]| && first as nat == chains[i][offset / 1024]
      requires |f0| == FAT_ENTRIES && GrownFrom(fat[..], chains[i], f0, c0, FirstDataBlock(), size)
      requires |c0| + |FreeBlocks(f0, FirstDataBlock(), size)| >= WalkBlocks(offset, |buf|)
      modifies fat, this`disk, this`chains
      ensures r == Ok(|buf|) && !stopped
      ensures Writing(i, c0, f0, old(chains), old(disk), offset, buf, j, last)
      ensures j + 1 == WalkBlocks(offset, |buf|)
    {
      var cur := first;
      var written: nat := 0;
      var blockOffset := offset % 1024;
      j := offset / 1024;
      WritingStart(i, first, offset, c0, f0);
      while written < |buf|
        invariant WriteProgress(offset, |buf|, written, j)
        invariant Writing(i, c0, f0, old(chains), old(disk), offset, buf[..written], j, cur)
      {
        if cur as int >= sb.numberBlocks {
          r := Err(EINVAL);
          return;
        }
        var start := if written == 0 then blockOffset else 0;
        var space := 1024 - start;
        var toCopy := if |buf| - written < space then |buf| - written else space;
        var next;
        ghost var j': nat;
        var written' := written + toCopy;
        WriteRound(offset, |buf|, written, j, start, toCopy, written');
        PrefixConcat(buf, written, written');
        next, j' := WriteStep(i, cur, start, buf[written .. written'], written' < |buf|,
                              c0, f0, old(chains), old(disk), offset, buf[..written], buf[..written'], j);
        written := written';
        if next.Err? {
          r, stopped := Ok(written), true;
          return;
        }
        cur, j := next.value, j';
      }
      PrefixConcat(buf, written, written);
      return Ok(written), false, j, cur;
    }

    /** The end of `fat_write` (fat.c:517-527): the length grows to `end` when
        that lies past it, then the FAT and the directory are written back;
        the data blocks, and so what was written, stay as they are. */
    method FinishWrite(i: nat, end: nat, ghost d0: seq<seq<byte>>, ghost offset: nat, ghost data: seq<byte>)
      requires WellFormed() && DiskOk() && mounted && i < N_ITEMS && dir[i].used
      requires end <= INT_MAX && end <= |chains[i]| * 1024
      requires Overlaid(disk, d0, chains[i], FirstDataBlock(), offset, data)
      modifies dir, this`disk
      ensures WellFormed() && DiskOk()
      ensures dir[i] == old(dir[i]).(length := Max(old(dir[i].length), end) as u32)
      ensures forall j :: 0 <= j < N_ITEMS && j != i ==> dir[j] == old(dir[j])
      ensures Flushed() && DataUnchanged(old(disk))
      ensures Overlaid(disk, d0, chains[i], FirstDataBlock(), offset, data)
    {
      assert EntryOk(dir[..][i], fat[..], size, chains[i]);
      if end > dir[i].length as int {
        SetLengthWF(sb, dir[..], fat[..], chains, size, i, end as u32);
        dir[i] := dir[i].(length := end as u32);
      }
      ghost var written := disk;
      FlushFat();
      disk := disk[DIR := EncodeDir(dir[..])];
      OverlaidKeep(written, disk, d0, chains[i], FirstDataBlock(), offset, data);
    }

    /** The chain of entry `i` and the FREE data blocks together reach the last
        block `fat_write` walks to for `n` bytes at `offset`. */
    ghost predicate Fits(i: nat, offset: nat, n: nat)
      reads this`sb, this`chains, this`mounted, dir, fat
    {
      WellFormed() && i < N_ITEMS &&
      |chains[i]| + |FreeBlocks(fat[..], FirstDataBlock(), size)| >= WalkBlocks(offset, n)
    }

    /** `fat_write` (fat.c:381-528): writes `buf` into the named file from byte
        `offset` on. When a check fails nothing changes. Otherwise the chain
        grows by the lowest FREE data blocks only, and when the walk reaches
        the block of the last byte (always, for a non-empty `buf`) all of
        `buf` is written, the length becomes `max(length, offset + |buf|)`,
        the old bytes outside the window are kept and the FAT and directory
        are written back. `|buf|` and `offset` are C `int`s, and the rounding
        `offset + length + BLOCK_SIZE - 1` of the space check does not overflow. */
    method Write(name: CString, buf: seq<byte>, offset: int) returns (r: Result<nat>)
      requires Inv() && (mounted ==> WellFormed())
      requires |buf| <= INT_MAX && -0x8000_0000 <= offset && offset + |buf| + 1023 <= INT_MAX
      modifies fat, dir, this`disk, this`chains
      ensures Inv() && (mounted ==> WellFormed())
      ensures old(CheckWrite(name, |buf|, offset)).Err? ==>
        r == old(CheckWrite(name, |buf|, offset)) &&
        unchanged(fat) && unchanged(dir) && disk == old(disk) && chains == old(chains)
      ensures old(CheckWrite(name, |buf|, offset)).Ok? ==>
        var i := old(CheckWrite(name, |buf|, offset)).value;
        chains == old(chains)[i := chains[i]] &&
        GrownFrom(fat[..], chains[i], old(fat[..]), old(chains[i]), FirstDataBlock(), size) &&
        (forall j :: 0 <= j < N_ITEMS && j != i ==> dir[j] == old(dir[j])) &&
        (r.Ok? <==> old(Fits(i, offset as nat, |buf|))) &&
        (|buf| > 0 ==> r == Ok(|buf|)) &&
        (r.Ok? ==>
           r.value == |buf| && Flushed() &&
           dir[i] == old(dir[i]).(first := dir[i].first, length := Max(old(dir[i].length), offset + |buf|) as u32) &&
           Overlaid(disk, old(disk), chains[i], FirstDataBlock(), offset as nat, buf)) &&
        (r.Err? ==>
           r.error == ENOSPC && FreeBlocks(fat[..], FirstDataBlock(), size) == [] &&
           dir[i] == old(dir[i]).(first := dir[i].first) && disk == old(disk))
      ensures old(NoLeak()) ==> NoLeak()
    {
      var plan := PlanWrite(name, |buf|, offset);
      if plan.Err? {
        return Err(plan.error);
      }
      r := WriteEntry(plan.value, buf, offset as nat);
      if old(NoLeak()) {
        AccountedGrown(fat[..], chains[plan.value], old(fat[..]), old(chains), FirstDataBlock(), size, plan.value);
      }
    }

    /** `fat_write` on entry `i` once its checks have passed (fat.c:430-527):
        the file takes a first block if it has none, the walk to block
        `offset / BLOCK_SIZE` and the write loop link the lowest FREE data
        blocks as they need them, `buf` is laid over the file's bytes from
        `offset` on and the length grows to `offset + |buf|`. When the blocks do
        not reach, which the space check leaves possible only for an empty
        `buf`, ENOSPC is reported after the chain has taken every FREE data
        block, and nothing is written back. */
    method WriteEntry(i: nat, buf: seq<byte>, offset: nat) returns (r: Result<nat>)
      requires WellFormed() && DiskOk() && mounted && i < N_ITEMS && dir[i].used
      requires offset + |buf| <= INT_MAX
      requires |FreeBlocks(fat[..], FirstDataBlock(), size)| >= BlocksFor(offset + |buf|) - |chains[i]|
      modifies fat, dir, this`disk, this`chains
      ensures WellFormed() && DiskOk()
      ensures chains == old(chains)[i := chains[i]]
      ensures GrownFrom(fat[..], chains[i], old(fat[..]), old(chains[i]), FirstDataBlock(), size)
      ensures r.Ok? <==> old(Fits(i, offset, |buf|))
      ensures |buf| > 0 ==> r.Ok?
      ensures r.Ok? ==>
        r.value == |buf| && |chains[i]| == Max(|old(chains[i])|, WalkBlocks(offset, |buf|)) &&
        dir[i] == old(dir[i]).(first := dir[i].first, length := Max(old(dir[i].length), offset + |buf|) as u32) &&
        Flushed() && Overlaid(disk, old(disk), chains[i], FirstDataBlock(), offset, buf)
      ensures r.Err? ==>
        r.error == ENOSPC && FreeBlocks(fat[..], FirstDataBlock(), size) == [] &&
        dir[i] == old(dir[i]).(first := dir[i].first) && disk == old(disk)
      ensures forall j :: 0 <= j < N_ITEMS && j != i ==> dir[j] == old(dir[j])
    {
      var cur := WalkTo(i, offset / 1024);
      if cur.Err? {
        return Err(ENOSPC);
      }
      ghost var ch1 := chains;
      r := WriteTail(i, cur.value, buf, offset, old(chains[i]), old(fat[..]));
      UpdateTwice(old(chains), i, ch1[i], chains[i]);
      assert |chains[i]| == Max(|old(chains[i])|, WalkBlocks(offset, |buf|));
    }

    /** The rest of `fat_write` once the walk has reached block `first`, which
        holds byte `offset` (fat.c:474-527): the write loop, then the new
        length and the write-back of the FAT and the directory. */
    method WriteTail(i: nat, first: u32, buf: seq<byte>, offset: nat, ghost c0: seq<nat>, ghost f0: seq<u32>)
      returns (r: Result<nat>)
      requires WellFormed() && DiskOk() && mounted && i < N_ITEMS && dir[i].used
      requires offset + |buf| <= INT_MAX
      requires offset / 1024 < |chains[i]| && first as nat == chains[i][offset / 1024]
      requires |f0| == FAT_ENTRIES && GrownFrom(fat[..], chains[i], f0, c0, FirstDataBlock(), size)
      requires |c0| + |FreeBlocks(f0, FirstDataBlock(), size)| >= WalkBlocks(offset, |buf|)
      modifies fat, dir, this`disk, this`chains
      ensures r == Ok(|buf|) && WellFormed() && DiskOk()
      ensures chains == old(chains)[i := chains[i]]
      ensures GrownFrom(fat[..], chains[i], f0, c0, FirstDataBlock(), size)
      ensures |chains[i]| == Max(|old(chains[i])|, WalkBlocks(offset, |buf|))
      ensures dir[i] == old(dir[i]).(length := Max(old(dir[i].length), offset + |buf|) as u32)
      ensures forall j :: 0 <= j < N_ITEMS && j != i ==> dir[j] == old(dir[j])
      ensures Flushed() && Overlaid(disk, old(disk), chains[i], FirstDataBlock(), offset, buf)
    {
      var res, stopped, j, last := WriteBlocks(i, first, buf, offset, c0, f0);
      if stopped {
        return res;
      }
      var end := offset + |buf|;
      FinishWrite(i, end, old(disk), offset, buf);
      return res;
    }

    /** The first part of `fat_write` after its checks (fat.c:430-472): entry
        `i` takes the lowest FREE data block when it has no block, then the
        walk goes `skip` blocks down the chain, linking the lowest FREE data
        block where it ends. It reaches its block exactly when the chain and
        the FREE data blocks hold `skip + 1` blocks; otherwise ENOSPC, once
        every FREE data block has been linked. */
    method WalkTo(i: nat, skip: nat) returns (r: Result<u32>)
      requires WellFormed() && mounted && i < N_ITEMS && dir[i].used
      modifies fat, dir, this`chains
      ensures WellFormed()
      ensures chains == old(chains)[i := chains[i]]
      ensures GrownFrom(fat[..], chains[i], old(fat[..]), old(chains[i]), FirstDataBlock(), size)
      ensures r.Ok? <==> |old(chains[i])| + |old(FreeBlocks(fat[..], FirstDataBlock(), size))| >= skip + 1
      ensures r.Ok? ==>
        skip < |chains[i]| && r.value as nat == chains[i][skip] && |chains[i]| == Max(|old(chains[i])|, skip + 1)
      ensures r.Err? ==> r.error == ENOSPC && FreeBlocks(fat[..], FirstDataBlock(), size) == []
      ensures dir[i] == old(dir[i]).(first := dir[i].first)
      ensures forall j :: 0 <= j < N_ITEMS && j != i ==> dir[j] == old(dir[j])
    {
      ghost var c0 := chains[i];
      ghost var f0 := fat[..];
      var first := StartChain(i);
      if first.Err? {
        assert fat[..] == f0;
        GrownSelf(f0, c0, FirstDataBlock(), size);
        return Err(ENOSPC);
      }
      ghost var ch1 := chains;
      r := SkipTo(i, first.value, skip, c0, f0);
      UpdateTwice(old(chains), i, ch1[i], chains[i]);
    }
  }
}

=== FILE: fat_spec.dfy ===
/** Specification of the FAT filesystem state as values: block chains, the
    first-fit order of free blocks, a file's byte stream, directory lookup,
    and the invariant that every operation of fat.c preserves. */
module FatSpec {
  import opened FatTypes

  // -------------------------------------------------------------------- chains

  /** `c` is the chain that starts at `start` in FAT `f`: empty when `start` is
      EOFF, otherwise its blocks are distinct data blocks, each entry points to
      the next one and the last entry is EOFF. */
  ghost predicate IsChain(f: seq<u32>, ds: nat, nb: nat, start: nat, c: seq<nat>)
  {
    2 <= ds && nb <= |f| &&
    (forall k :: 0 <= k < |c| ==> ds <= c[k] < nb) &&
    (if c == [] then start == EOFF as nat else c[0] == start && f[c[|c| - 1]] == EOFF) &&
    (forall k :: 0 <= k < |c| - 1 ==> f[c[k]] as nat == c[k + 1]) &&
    (forall j, k :: 0 <= j < k < |c| ==> c[j] != c[k])
  }

  ghost predicate Disjoint(a: seq<nat>, b: seq<nat>)
  {
    forall x :: x in a ==> x !in b
  }

  lemma UpdateTwice(a: seq<seq<nat>>, i: nat, x: seq<nat>, y: seq<nat>)
    requires i < |a|
    ensures a[i := x][i := y] == a[i := y]
  {
  }

  /** The chains of different directory slots share no block. */
  ghost predicate AllDisjoint(chains: seq<seq<nat>>)
    requires |chains| == N_ITEMS
  {
    forall j, k {:trigger Disjoint(chains[j], chains[k])} ::
      0 <= j < N_ITEMS && 0 <= k < N_ITEMS && j != k ==> Disjoint(chains[j], chains[k])
  }

  /** Replacing chain `i` by a chain that shares no block with the others. */
  lemma DisjointUpdate(chains: seq<seq<nat>>, i: nat, c: seq<nat>)
    requires |chains| == N_ITEMS && i < N_ITEMS && AllDisjoint(chains)
    requires forall j :: 0 <= j < N_ITEMS && j != i ==> Disjoint(c, chains[j])
    ensures AllDisjoint(chains[i := c])
  {
    var ch := chains[i := c];
    forall j, k | 0 <= j < N_ITEMS && 0 <= k < N_ITEMS && j != k
      ensures Disjoint(ch[j], ch[k])
    {
      if j == i {
        assert Disjoint(c, chains[k]);
      } else if k == i {
        assert Disjoint(c, chains[j]);
      } else {
        assert Disjoint(chains[j], chains[k]);
      }
    }
  }

  /** A chain only depends on the FAT entries of its own blocks. */
  lemma ChainFrame(f: seq<u32>, g: seq<u32>, ds: nat, nb: nat, start: nat, c: seq<nat>)
    requires IsChain(f, ds, nb, start, c) && |g| == |f|
    requires forall k :: 0 <= k < |c| ==> g[c[k]] == f[c[k]]
    ensures IsChain(g, ds, nb, start, c)
  {
  }

  /** Block reached after `k` hops from `b`, or -1 when the walk meets EOFF or
      a block number outside the store first (the stop rule of `fat_read`). */
  function Walk(f: seq<u32>, nb: nat, b: int, k: nat): (r: int)
    requires nb <= |f|
    decreases k
  {
    if k == 0 then b
    else if b < 0 || b == EOFF as int || b >= nb then -1
    else Walk(f, nb, f[b], k - 1)
  }

  /** On a well-formed chain the walk visits the chain's blocks in order. */
  lemma {:induction false} WalkChain(f: seq<u32>, ds: nat, nb: nat, c: seq<nat>, k: nat)
    requires c != [] && IsChain(f, ds, nb, c[0], c) && k < |c|
    ensures Walk(f, nb, c[0], k) == c[k]
  {
    if k > 0 {
      assert IsChain(f, ds, nb, c[1], c[1..]);
      WalkChain(f, ds, nb, c[1..], k - 1);
    }
  }

  /** Walking `k` hops and then `m` more is walking `k + m` hops. */
  lemma {:induction false} WalkSplit(f: seq<u32>, nb: nat, b: int, k: nat, m: nat)
    requires nb <= |f|
    ensures Walk(f, nb, b, k + m) == Walk(f, nb, Walk(f, nb, b, k), m)
    decreases k
  {
    if k > 0 && 0 <= b < nb && b != EOFF as int {
      WalkSplit(f, nb, f[b], k - 1, m);
    }
  }

  /** The chain read by walking at most `fuel` hops from `b`. */
  ghost function ChainOf(f: seq<u32>, nb: nat, b: nat, fuel: nat): seq<nat>
    requires nb <= |f|
    decreases fuel
  {
    if fuel == 0 || b == EOFF as nat || b >= nb then [] else [b] + ChainOf(f, nb, f[b], fuel - 1)
  }

  /** A well-formed chain is what a walk of enough hops reads. */
  lemma {:induction false} ChainOfIsChain(f: seq<u32>, ds: nat, nb: nat, start: nat, c: seq<nat>, fuel: nat)
    requires IsChain(f, ds, nb, start, c) && |c| <= fuel
    ensures ChainOf(f, nb, start, fuel) == c
    decreases |c|
  {
    if c != [] {
      if |c| == 1 {
        assert ChainOf(f, nb, f[start], fuel - 1) == [];
      } else {
        assert IsChain(f, ds, nb, c[1], c[1..]);
        ChainOfIsChain(f, ds, nb, c[1], c[1..], fuel - 1);
      }
    }
  }

  // --------------------------------------------------------------- free blocks

  /** FREE blocks of `[lo, hi)` in increasing order: the order in which the
      first-fit scans of fat.c hand them out. */
  function FreeBlocks(f: seq<u32>, lo: nat, hi: nat): (r: seq<nat>)
    requires hi <= |f|
    ensures forall k :: 0 <= k < |r| ==> lo <= r[k] < hi
    decreases hi - lo
  {
    if lo >= hi then []
    else if f[lo] == FREE then [lo] + FreeBlocks(f, lo + 1, hi)
    else FreeBlocks(f, lo + 1, hi)
  }

  /** Every block on the free list is FREE. */
  lemma {:induction false} FreeBlocksAreFree(f: seq<u32>, lo: nat, hi: nat)
    requires hi <= |f|
    ensures forall k :: 0 <= k < |FreeBlocks(f, lo, hi)| ==> f[FreeBlocks(f, lo, hi)[k]] == FREE
    decreases hi - lo
  {
    if lo < hi {
      FreeBlocksAreFree(f, lo + 1, hi);
      var rest := FreeBlocks(f, lo + 1, hi);
      if f[lo] == FREE {
        var r := [lo] + rest;
        assert FreeBlocks(f, lo, hi) == r;
        forall k | 1 <= k < |r|
          ensures f[r[k]] == FREE
        {
          assert r[k] == rest[k - 1];
        }
      }
    }
  }

  /** Every FREE block of `[lo, hi)` is on the free list. */
  lemma {:induction false} FreeBlocksComplete(f: seq<u32>, lo: nat, hi: nat)
    requires hi <= |f|
    ensures forall b :: lo <= b < hi && f[b] == FREE ==> b in FreeBlocks(f, lo, hi)
    decreases hi - lo
  {
    if lo < hi {
      FreeBlocksComplete(f, lo + 1, hi);
      var rest := FreeBlocks(f, lo + 1, hi);
      forall b | lo <= b < hi && f[b] == FREE
        ensures b in FreeBlocks(f, lo, hi)
      {
        if b > lo {
          assert b in rest;
        }
      }
    }
  }

  /** The free list is strictly increasing: first fit hands out the lowest block. */
  lemma {:induction false} FreeBlocksSorted(f: seq<u32>, lo: nat, hi: nat)
    requires hi <= |f|
    ensures forall j, k :: 0 <= j < k < |FreeBlocks(f, lo, hi)| ==> FreeBlocks(f, lo, hi)[j] < FreeBlocks(f, lo, hi)[k]
    decreases hi - lo
  {
    if lo < hi {
      FreeBlocksSorted(f, lo + 1, hi);
      var rest := FreeBlocks(f, lo + 1, hi);
      if f[lo] == FREE {
        var r := [lo] + rest;
        assert FreeBlocks(f, lo, hi) == r;
        forall j, k | 0 <= j < k < |r|
          ensures r[j] < r[k]
        {
          assert r[k] == rest[k - 1];
          if j > 0 {
            assert r[j] == rest[j - 1];
          }
        }
      }
    }
  }

  /** Changing an entry without changing whether it is FREE keeps the free list. */
  lemma {:induction false} FreeBlocksKeep(f: seq<u32>, lo: nat, hi: nat, x: nat, v: u32)
    requires hi <= |f| && x < |f|
    requires x < lo || x >= hi || ((f[x] == FREE) == (v == FREE))
    ensures FreeBlocks(f[x := v], lo, hi) == FreeBlocks(f, lo, hi)
    decreases hi - lo
  {
    if lo < hi {
      FreeBlocksKeep(f, lo + 1, hi, x, v);
    }
  }

  /** Taking the first free block off the free list. */
  lemma {:induction false} FreeBlocksTake(f: seq<u32>, lo: nat, hi: nat, v: u32)
    requires hi <= |f| && FreeBlocks(f, lo, hi) != [] && v != FREE
    ensures var x := FreeBlocks(f, lo, hi)[0];
      x < |f| && FreeBlocks(f[x := v], lo, hi) == FreeBlocks(f, lo, hi)[1..]
    decreases hi - lo
  {
    var x := FreeBlocks(f, lo, hi)[0];
    if f[lo] == FREE {
      assert x == lo;
      FreeBlocksKeep(f, lo + 1, hi, x, v);
    } else {
      FreeBlocksTake(f, lo + 1, hi, v);
    }
  }

  // --------------------------------------------------------------- byte streams

  /** Byte `q` of block `b` of the store; a block outside the store reads as
      zeros, which never happens on the chains of a well-formed state. */
  function ByteAt(disk: seq<seq<byte>>, b: nat, q: nat): (r: byte)
  {
    if b < |disk| && q < |disk[b]| then disk[b][q] else 0
  }

  /** The bytes held by the blocks of chain `c`, in chain order: byte `p` of a
      file lives at offset `p % BLOCK_SIZE` of its chain's block `p / BLOCK_SIZE`. */
  ghost function Stream(disk: seq<seq<byte>>, c: seq<nat>): (s: seq<byte>)
    ensures |s| == |c| * 1024
  {
    seq(|c| * 1024, p requires 0 <= p < |c| * 1024 => ByteAt(disk, c[p / 1024], p % 1024))
  }

  /** The stream bytes `[j * BLOCK_SIZE + start, j * BLOCK_SIZE + start + len)`
      lie in block `j` of the chain. */
  lemma StreamBlock(disk: seq<seq<byte>>, c: seq<nat>, j: nat, start: nat, len: nat)
    requires j < |c| && c[j] < |disk| && |disk[c[j]]| == 1024 && start + len <= 1024
    ensures Stream(disk, c)[j * 1024 + start .. j * 1024 + start + len] == disk[c[j]][start .. start + len]
  {
    forall p | j * 1024 + start <= p < j * 1024 + start + len
      ensures Stream(disk, c)[p] == disk[c[j]][p - j * 1024]
    {
      assert p / 1024 == j && p % 1024 == p - j * 1024;
    }
  }

  /** Appending the bytes of block `j` from `start` on to a prefix of the
      stream that ends there extends the prefix. */
  lemma StreamExtend(disk: seq<seq<byte>>, c: seq<nat>, offset: nat, j: nat, start: nat, len: nat, data: seq<byte>)
    requires j < |c| && c[j] < |disk| && |disk[c[j]]| == 1024 && start + len <= 1024
    requires offset <= j * 1024 + start && data == Stream(disk, c)[offset .. j * 1024 + start]
    ensures data + disk[c[j]][start .. start + len] == Stream(disk, c)[offset .. j * 1024 + start + len]
  {
    var s := Stream(disk, c);
    var at := j * 1024 + start;
    StreamBlock(disk, c, j, start, len);
    assert s[offset .. at + len] == s[offset .. at] + s[at .. at + len];
  }

  /** One turn of the read loop over block `j` of a well-formed chain: the bytes
      it copies continue the stream, and when more are wanted the FAT entry of
      block `j` leads to block `j + 1`. */
  lemma ReadStep(f: seq<u32>, disk: seq<seq<byte>>, c: seq<nat>, ds: nat, nb: nat, offset: nat, readable: nat,
                 j: nat, start: nat, toCopy: nat, data: seq<byte>)
    requires c != [] && IsChain(f, ds, nb, c[0], c) && offset + readable <= |c| * 1024
    requires j < |c| && c[j] < |disk| && |disk[c[j]]| == 1024
    requires |data| < readable && start < 1024 && offset + |data| == j * 1024 + start
    requires toCopy == Min(readable - |data|, 1024 - start)
    requires data == Stream(disk, c)[offset .. offset + |data|]
    ensures data + disk[c[j]][start .. start + toCopy] == Stream(disk, c)[offset .. offset + |data| + toCopy]
    ensures |data| + toCopy < readable ==>
      offset + |data| + toCopy == (j + 1) * 1024 && j + 1 < |c| && f[c[j]] as nat == c[j + 1]
  {
    StreamExtend(disk, c, offset, j, start, toCopy, data);
  }

  /** `block` with the bytes from `at` on replaced by `src` (the `memcpy` into `temp_block`). */
  function Patch(block: seq<byte>, at: nat, src: seq<byte>): (r: seq<byte>)
    requires at + |src| <= |block|
    ensures |r| == |block|
  {
    block[..at] + src + block[at + |src|..]
  }

  // ------------------------------------------------------------------ directory

  /** Index of the first used entry named `name`, or -1 (the lookup loop of fat.c). */
  function Find(d: seq<DirItem>, name: seq<byte>): (r: int)
    ensures -1 <= r < |d|
    ensures r >= 0 ==> d[r].used && d[r].name == name
    ensures forall j :: 0 <= j < |d| && (r == -1 || j < r) ==> !(d[j].used && d[j].name == name)
  {
    if d == [] then -1
    else if d[0].used && d[0].name == name then 0
    else
      var k := Find(d[1..], name);
      if k == -1 then -1 else k + 1
  }

  /** The lookup reads only the `used` flags and the names of the entries. */
  lemma FindSameNames(d: seq<DirItem>, d': seq<DirItem>, name: seq<byte>)
    requires |d'| == |d|
    requires forall j :: 0 <= j < |d| ==> d'[j].used == d[j].used && d'[j].name == d[j].name
    ensures Find(d', name) == Find(d, name)
  {
  }

  /** Index of the first unused entry, or -1. */
  function FirstUnused(d: seq<DirItem>): (r: int)
    ensures -1 <= r < |d|
    ensures r >= 0 ==> !d[r].used
    ensures forall j :: 0 <= j < |d| && (r == -1 || j < r) ==> d[j].used
  {
    if d == [] then -1
    else if !d[0].used then 0
    else
      var k := FirstUnused(d[1..]);
      if k == -1 then -1 else k + 1
  }

  // ------------------------------------------------------------------ invariant

  /** The superblock `fat_format` writes for a store of `nb` blocks. */
  ghost predicate SuperOk(sb: Super, nb: nat)
  {
    sb.magic == MAGIC_N && sb.numberBlocks == nb && sb.nFatBlocks == FatBlocks(nb) &&
    DataStart(nb) <= nb <= FAT_ENTRIES
  }

  /** A used entry owns a chain long enough for its length; an unused one owns nothing. */
  ghost predicate EntryOk(e: DirItem, f: seq<u32>, nb: nat, c: seq<nat>)
  {
    if e.used then IsChain(f, DataStart(nb), nb, e.first, c) && e.length <= |c| * 1024
    else c == []
  }

  /** The filesystem invariant: reserved blocks are BUSY, every used entry owns
      an acyclic EOFF-terminated chain inside the data region, chains of
      different entries share no block, and names of used entries are unique. */
  ghost predicate WF(sb: Super, d: seq<DirItem>, f: seq<u32>, chains: seq<seq<nat>>, nb: nat)
  {
    SuperOk(sb, nb) && |d| == N_ITEMS && |chains| == N_ITEMS && nb <= |f| &&
    (forall b :: 0 <= b < DataStart(nb) ==> f[b] == BUSY) &&
    (forall j {:trigger EntryOk(d[j], f, nb, chains[j])} :: 0 <= j < N_ITEMS ==> EntryOk(d[j], f, nb, chains[j])) &&
    AllDisjoint(chains) &&
    (forall j, k :: 0 <= j < k < N_ITEMS && d[j].used && d[k].used ==> d[j].name != d[k].name)
  }

  /** Blocks on a chain are data blocks, so never one of the sentinel values. */
  lemma ChainBlocksAreNotSentinels(sb: Super, d: seq<DirItem>, f: seq<u32>, chains: seq<seq<nat>>, nb: nat,
                                   j: nat, k: nat)
    requires WF(sb, d, f, chains, nb) && j < N_ITEMS && k < |chains[j]|
    ensures chains[j][k] > BUSY as nat
  {
    assert EntryOk(d[j], f, nb, chains[j]);
  }

  /** Following block `k` of a chain in a well-formed state: its FAT entry is
      EOFF exactly at the last block, and otherwise names the next block. */
  lemma ChainStep(sb: Super, d: seq<DirItem>, f: seq<u32>, chains: seq<seq<nat>>, nb: nat, i: nat, k: nat)
    requires WF(sb, d, f, chains, nb) && i < N_ITEMS && k < |chains[i]|
    ensures DataStart(nb) <= chains[i][k] < nb
    ensures f[chains[i][k]] == EOFF <==> k == |chains[i]| - 1
    ensures k < |chains[i]| - 1 ==> f[chains[i][k]] as nat == chains[i][k + 1]
    ensures forall x, y :: 0 <= x < y < |chains[i]| ==> chains[i][x] != chains[i][y]
  {
    var c := chains[i];
    assert EntryOk(d[i], f, nb, c);
    if k < |c| - 1 {
      assert f[c[k]] as nat == c[k + 1] >= DataStart(nb);
    }
  }

  /** A FREE block belongs to no chain. */
  lemma FreeIsOffChains(sb: Super, d: seq<DirItem>, f: seq<u32>, chains: seq<seq<nat>>, nb: nat, b: nat)
    requires WF(sb, d, f, chains, nb) && b < |f| && f[b] == FREE
    ensures forall j :: 0 <= j < N_ITEMS ==> b !in chains[j]
  {
    forall j | 0 <= j < N_ITEMS
      ensures b !in chains[j]
    {
      var c := chains[j];
      assert EntryOk(d[j], f, nb, c);
      forall k | 0 <= k < |c|
        ensures c[k] != b
      {
        if k < |c| - 1 {
          assert f[c[k]] as nat == c[k + 1] >= DataStart(nb);
        }
      }
    }
  }

  /** The blocks of a chain, as a set. */
  ghost function Elems(c: seq<nat>): (s: set<nat>)
    ensures forall x :: x in s <==> x in c
  {
    if c == [] then {} else {c[0]} + Elems(c[1..])
  }

  /** A chain without repeated blocks has as many blocks as its set of blocks. */
  lemma {:induction false} ChainBlocks(c: seq<nat>)
    requires forall j, k :: 0 <= j < k < |c| ==> c[j] != c[k]
    ensures |Elems(c)| == |c|
  {
    if c != [] {
      ChainBlocks(c[1..]);
      assert c[0] !in c[1..];
    }
  }

  /** The block numbers of `[lo, hi)`. */
  ghost function Range(lo: nat, hi: nat): (r: set<nat>)
    requires lo <= hi
    ensures forall x :: x in r <==> lo <= x < hi
    ensures |r| == hi - lo
    decreases hi - lo
  {
    if lo == hi then {} else {lo} + Range(lo + 1, hi)
  }

  /** Distinct block numbers from `[lo, hi)` number at most `hi - lo`. */
  lemma DistinctBound(c: seq<nat>, lo: nat, hi: nat)
    requires lo <= hi
    requires forall k :: 0 <= k < |c| ==> lo <= c[k] < hi
    requires forall j, k :: 0 <= j < k < |c| ==> c[j] != c[k]
    ensures |c| <= hi - lo
  {
    ChainBlocks(c);
    var r := Range(lo, hi);
    assert Elems(c) <= r;
    assert r == Elems(c) + (r - Elems(c));
  }

  /** A chain visits each data block at most once, so it has at most as many
      blocks as the data region; in particular a walk of `nb` hops reads it
      whole. */
  lemma ChainLength(f: seq<u32>, ds: nat, nb: nat, start: nat, c: seq<nat>)
    requires IsChain(f, ds, nb, start, c)
    ensures c == [] || |c| <= nb - ds
    ensures |c| <= nb
  {
    if c != [] {
      DistinctBound(c, ds, nb);
    }
  }
  /** In a well-formed state no stored length exceeds INT_MAX, so comparing
      an `int` offset with the unsigned length, as `fat_read` does, rejects
      every negative offset: it turns into `offset + 2^32`, at least 2^31. */
  lemma NegativeOffsetRejected(sb: Super, d: seq<DirItem>, f: seq<u32>, chains: seq<seq<nat>>, nb: nat,
                               i: nat, offset: int)
    requires WF(sb, d, f, chains, nb) && i < N_ITEMS && d[i].used
    requires -0x8000_0000 <= offset < 0
    ensures d[i].length as int <= INT_MAX
    ensures Unsigned(offset) >= d[i].length as int
  {
    assert EntryOk(d[i], f, nb, chains[i]);
    ChainLength(f, DataStart(nb), nb, d[i].first as nat, chains[i]);
    assert |chains[i]| * 1024 <= nb * 1024 <= 0x4000_0000;
  }


  /** The invariant reads the FAT only below `nb`: a table that agrees with `f`
      there keeps it, and every used entry's chain is what a walk reads. */
  lemma WFFrame(sb: Super, d: seq<DirItem>, f: seq<u32>, g: seq<u32>, chains: seq<seq<nat>>, nb: nat)
    requires WF(sb, d, f, chains, nb) && |g| == |f|
    requires forall b :: 0 <= b < nb ==> g[b] == f[b]
    ensures WF(sb, d, g, chains, nb)
    ensures forall j :: 0 <= j < N_ITEMS ==>
      chains[j] == if d[j].used then ChainOf(g, nb, d[j].first, nb) else []
  {
    forall j | 0 <= j < N_ITEMS
      ensures EntryOk(d[j], g, nb, chains[j])
      ensures chains[j] == if d[j].used then ChainOf(g, nb, d[j].first, nb) else []
    {
      assert EntryOk(d[j], f, nb, chains[j]);
      if d[j].used {
        ChainFrame(f, g, DataStart(nb), nb, d[j].first as nat, chains[j]);
        ChainLength(g, DataStart(nb), nb, d[j].first as nat, chains[j]);
        ChainOfIsChain(g, DataStart(nb), nb, d[j].first as nat, chains[j], nb);
      }
    }
  }

  // ---------------------------------------------------------------- accounting

  /** Every data block that is not FREE lies on the chain of some entry: no
      block is lost to the FAT. */
  ghost predicate Accounted(f: seq<u32>, chains: seq<seq<nat>>, ds: nat, nb: nat)
    requires nb <= |f|
  {
    forall b :: ds <= b < nb && f[b] != FREE ==> exists j :: 0 <= j < |chains| && b in chains[j]
  }

  /** With the invariant, a data block is FREE exactly when it is on no chain;
      as the chains share no block, the data blocks split into the FREE ones
      and those of each file. */
  lemma BlockAccounting(sb: Super, d: seq<DirItem>, f: seq<u32>, chains: seq<seq<nat>>, nb: nat, b: nat)
    requires WF(sb, d, f, chains, nb) && Accounted(f, chains, DataStart(nb), nb)
    requires DataStart(nb) <= b < nb
    ensures f[b] == FREE <==> forall j :: 0 <= j < N_ITEMS ==> b !in chains[j]
  {
    if f[b] == FREE {
      FreeIsOffChains(sb, d, f, chains, nb, b);
    }
  }

  /** A formatted FAT, FREE over the whole data region, has nothing to account for. */
  lemma AccountedFormatted(f: seq<u32>, chains: seq<seq<nat>>, ds: nat, nb: nat)
    requires nb <= |f| && forall b :: ds <= b < nb ==> f[b] == FREE
    ensures Accounted(f, chains, ds, nb)
  {
  }

  /** `fat_create`: block `b` becomes the one-block chain of the empty slot `s`. */
  lemma AccountedTake(f: seq<u32>, chains: seq<seq<nat>>, ds: nat, nb: nat, s: nat, b: nat)
    requires nb <= |f| && Accounted(f, chains, ds, nb)
    requires s < |chains| && chains[s] == [] && b < |f|
    ensures Accounted(f[b := EOFF], chains[s := [b]], ds, nb)
  {
    var g, ch := f[b := EOFF], chains[s := [b]];
    forall x | ds <= x < nb && g[x] != FREE
      ensures exists j :: 0 <= j < |ch| && x in ch[j]
    {
      if x == b {
        assert x in ch[s];
      } else {
        var j :| 0 <= j < |chains| && x in chains[j];
        assert j != s && ch[j] == chains[j];
      }
    }
  }

  /** `fat_delete`: the blocks of chain `i` become FREE and the chain empty. */
  lemma AccountedRelease(f: seq<u32>, g: seq<u32>, chains: seq<seq<nat>>, ds: nat, nb: nat, i: nat)
    requires nb <= |f| && Accounted(f, chains, ds, nb) && i < |chains| && |g| == |f|
    requires forall b :: 0 <= b < |f| ==> g[b] == if b in chains[i] then FREE else f[b]
    ensures Accounted(g, chains[i := []], ds, nb)
  {
    var ch := chains[i := []];
    forall x | ds <= x < nb && g[x] != FREE
      ensures exists j :: 0 <= j < |ch| && x in ch[j]
    {
      var j :| 0 <= j < |chains| && x in chains[j];
      assert j != i && ch[j] == chains[j];
    }
  }

  /** `fat_write`: chain `i` grows by FREE blocks, which are then no longer FREE. */
  lemma AccountedGrown(f: seq<u32>, c: seq<nat>, f0: seq<u32>, chains: seq<seq<nat>>, ds: nat, nb: nat, i: nat)
    requires nb <= |f0| && Accounted(f0, chains, ds, nb) && i < |chains|
    requires GrownFrom(f, c, f0, chains[i], ds, nb)
    ensures Accounted(f, chains[i := c], ds, nb)
  {
    var ch := chains[i := c];
    forall x | ds <= x < nb && f[x] != FREE
      ensures exists j :: 0 <= j < |ch| && x in ch[j]
    {
      if x in c {
        assert x in ch[i];
      } else {
        assert f[x] == f0[x];
        var j :| 0 <= j < |chains| && x in chains[j];
        assert j != i;
        assert ch[j] == chains[j];
      }
    }
  }

  /** A freshly formatted store: no entry is used, so no entry owns a chain. */
  lemma FormattedWF(sb: Super, d: seq<DirItem>, f: seq<u32>, nb: nat)
    requires SuperOk(sb, nb) && |d| == N_ITEMS && nb <= |f|
    requires forall j :: 0 <= j < N_ITEMS ==> !d[j].used
    requires forall b :: 0 <= b < DataStart(nb) ==> f[b] == BUSY
    ensures WF(sb, d, f, seq(N_ITEMS, _ => []), nb)
  {
  }

  /** Linking a block `b` that is not on chain `c` after its last block gives the chain `c + [b]`. */
  lemma ExtendChain(f: seq<u32>, ds: nat, nb: nat, start: nat, c: seq<nat>, b: u32)
    requires IsChain(f, ds, nb, start, c) && c != [] && ds <= b < nb && b !in c
    ensures IsChain(f[c[|c| - 1] := b][b := EOFF], ds, nb, start, c + [b])
  {
    var t := c[|c| - 1];
    var g := f[t := b][b := EOFF];
    var c' := c + [b];
    forall k | 0 <= k < |c'| - 1
      ensures g[c'[k]] as nat == c'[k + 1]
    {
      if k < |c| - 1 {
        assert c[k] != t && c[k] != b;
      }
    }
    forall j, k | 0 <= j < k < |c'|
      ensures c'[j] != c'[k]
    {
      if k == |c| {
        assert c'[j] in c;
      }
    }
  }

  /** Linking a FREE data block `b` after the tail of entry `i`'s chain. */
  lemma ExtendChainWF(sb: Super, d: seq<DirItem>, f: seq<u32>, chains: seq<seq<nat>>, nb: nat, i: nat, b: nat)
    requires WF(sb, d, f, chains, nb) && i < N_ITEMS && d[i].used && chains[i] != []
    requires EntryOk(d[i], f, nb, chains[i])
    requires DataStart(nb) <= b < nb && f[b] == FREE
    ensures WF(sb, d, f[chains[i][|chains[i]| - 1] := b][b := EOFF], chains[i := chains[i] + [b]], nb)
  {
    var c := chains[i];
    var t := c[|c| - 1];
    var g := f[t := b][b := EOFF];
    var ch := chains[i := c + [b]];
    FreeIsOffChains(sb, d, f, chains, nb, b);
    assert EntryOk(d[i], f, nb, c);
    ExtendChain(f, DataStart(nb), nb, d[i].first, c, b);
    forall j | 0 <= j < N_ITEMS && j != i
      ensures EntryOk(d[j], g, nb, ch[j])
    {
      assert EntryOk(d[j], f, nb, chains[j]);
      if d[j].used {
        assert Disjoint(chains[i], chains[j]);
        assert t in chains[i];
        ChainFrame(f, g, DataStart(nb), nb, d[j].first, chains[j]);
      }
    }
    forall j | 0 <= j < N_ITEMS && j != i
      ensures Disjoint(c + [b], chains[j])
    {
      assert Disjoint(chains[i], chains[j]);
    }
    DisjointUpdate(chains, i, c + [b]);
  }

  /** Giving a FREE data block `b` to entry `s`, which had no chain, as a one-block chain. */
  lemma NewChainWF(sb: Super, d: seq<DirItem>, f: seq<u32>, chains: seq<seq<nat>>, nb: nat,
                   s: nat, e: DirItem, b: nat)
    requires WF(sb, d, f, chains, nb) && s < N_ITEMS && chains[s] == []
    requires e.used && e.first as nat == b && e.length <= BLOCK_SIZE
    requires forall j :: 0 <= j < N_ITEMS && j != s && d[j].used ==> d[j].name != e.name
    requires DataStart(nb) <= b < nb && f[b] == FREE
    ensures WF(sb, d[s := e], f[b := EOFF], chains[s := [b]], nb)
  {
    var g := f[b := EOFF];
    var d' := d[s := e];
    var ch := chains[s := [b]];
    FreeIsOffChains(sb, d, f, chains, nb, b);
    forall j | 0 <= j < N_ITEMS
      ensures EntryOk(d'[j], g, nb, ch[j])
    {
      assert EntryOk(d[j], f, nb, chains[j]);
      if j != s && d[j].used {
        ChainFrame(f, g, DataStart(nb), nb, d[j].first, chains[j]);
      }
    }
    DisjointUpdate(chains, s, [b]);
  }

  /** Freeing every block of entry `i`'s chain and marking the entry unused. */
  lemma ReleaseWF(sb: Super, d: seq<DirItem>, f: seq<u32>, chains: seq<seq<nat>>, nb: nat, i: nat, g: seq<u32>)
    requires WF(sb, d, f, chains, nb) && i < N_ITEMS && d[i].used
    requires |g| == |f| && forall x :: 0 <= x < |f| ==> g[x] == if x in chains[i] then FREE else f[x]
    ensures WF(sb, d[i := d[i].(used := false)], g, chains[i := []], nb)
  {
    var d' := d[i := d[i].(used := false)];
    var ch := chains[i := []];
    assert EntryOk(d[i], f, nb, chains[i]);
    forall j | 0 <= j < N_ITEMS
      ensures EntryOk(d'[j], g, nb, ch[j])
    {
      assert EntryOk(d[j], f, nb, chains[j]);
      if j != i && d[j].used {
        assert Disjoint(chains[j], chains[i]);
        ChainFrame(f, g, DataStart(nb), nb, d[j].first, chains[j]);
      }
    }
    DisjointUpdate(chains, i, []);
  }

  /** Raising a used entry's length within what its chain holds. */
  lemma SetLengthWF(sb: Super, d: seq<DirItem>, f: seq<u32>, chains: seq<seq<nat>>, nb: nat, i: nat, len: u32)
    requires WF(sb, d, f, chains, nb) && i < N_ITEMS && d[i].used
    requires len <= |chains[i]| * 1024
    ensures WF(sb, d[i := d[i].(length := len)], f, chains, nb)
  {
    var d' := d[i := d[i].(length := len)];
    forall j | 0 <= j < N_ITEMS
      ensures EntryOk(d'[j], f, nb, chains[j])
    {
      assert EntryOk(d[j], f, nb, chains[j]);
    }
  }

  /** In a well-formed directory a used name belongs to one entry only, so
      unmarking that entry makes the name unknown. */
  lemma ReleasedNameIsGone(sb: Super, d: seq<DirItem>, f: seq<u32>, chains: seq<seq<nat>>, nb: nat, i: nat)
    requires WF(sb, d, f, chains, nb) && i < N_ITEMS && d[i].used
    ensures Find(d[i := d[i].(used := false)], d[i].name) == -1
  {
    var d' := d[i := d[i].(used := false)];
    forall j | 0 <= j < N_ITEMS && j != i && d[j].used
      ensures d[j].name != d[i].name
    {
      if j < i { assert d[j].name != d[i].name; } else { assert d[i].name != d[j].name; }
    }
    assert forall j :: 0 <= j < N_ITEMS ==> !(d'[j].used && d'[j].name == d[i].name);
  }

  // ---------------------------------------------------------------- write sizes

  /** Blocks `fat_write` walks to for `n` bytes at `offset`: the block holding
      the last byte written or, for `n == 0`, the block holding `offset`. */
  function WalkBlocks(offset: nat, n: nat): (r: nat)
    ensures n > 0 ==> r == BlocksFor(offset + n)
    ensures n == 0 ==> r == offset / 1024 + 1
    ensures offset / 1024 + 1 <= r && offset + n <= r * 1024
  {
    (offset + Max(n, 1) - 1) / 1024 + 1
  }

  /** Progress of the write loop of `fat_write`: `w` of the `n` bytes at
      `offset` are written and `j` is the chain position of the block the
      next byte goes to, or of the last block written once all are. */
  ghost predicate WriteProgress(offset: nat, n: nat, w: nat, j: nat)
  {
    w <= n &&
    (w == 0 ==> j == offset / 1024) &&
    (0 < w < n ==> offset + w == j * 1024) &&
    (w == n ==> j + 1 == WalkBlocks(offset, n))
  }

  /** One round of the write loop copies `t` bytes from byte `start` of block
      `j`, right where the bytes written so far end. Either it fills that block
      with bytes still to come, whose block then lies within the budget of
      `WalkBlocks(offset, n)` blocks, or it writes the last byte. */
  lemma WriteRound(offset: nat, n: nat, w: nat, j: nat, start: nat, t: nat, w': nat)
    requires WriteProgress(offset, n, w, j) && w < n
    requires start == (if w == 0 then offset % 1024 else 0) && t == Min(n - w, 1024 - start) && w' == w + t
    ensures offset + w == j * 1024 + start && start + t <= 1024
    ensures w' < n ==> j + 2 <= WalkBlocks(offset, n) && WriteProgress(offset, n, w', j + 1)
    ensures w' == n ==> WriteProgress(offset, n, w', j)
  {
  }

  /** Linking the lowest FREE data block `b` after the tail `t` of entry `i`'s
      chain (fat.c:467-468, fat.c:509-510) gives FAT `g` and chains `ch`: the
      invariant holds of them and `b` has left the free list. */
  lemma LinkFreeBlock(sb: Super, d: seq<DirItem>, f: seq<u32>, chains: seq<seq<nat>>, nb: nat, i: nat, b: u32,
                      t: nat, g: seq<u32>, ch: seq<seq<nat>>, f0: seq<u32>, c0: seq<nat>)
    requires WF(sb, d, f, chains, nb) && i < N_ITEMS && d[i].used && chains[i] != []
    requires EntryOk(d[i], f, nb, chains[i])
    requires FreeBlocks(f, DataStart(nb), nb) != [] && b as nat == FreeBlocks(f, DataStart(nb), nb)[0]
    requires t == chains[i][|chains[i]| - 1] && g == f[t := b][b := EOFF] && ch == chains[i := chains[i] + [b]]
    requires nb <= |f0| && GrownFrom(f, chains[i], f0, c0, DataStart(nb), nb)
    ensures b !in chains[i] && WF(sb, d, g, ch, nb)
    ensures GrownFrom(g, ch[i], f0, c0, DataStart(nb), nb)
  {
    var c := chains[i];
    var ds := DataStart(nb);
    FreeBlocksAreFree(f, ds, nb);
    assert f[b] == FREE;
    FreeIsOffChains(sb, d, f, chains, nb, b);
    assert EntryOk(d[i], f, nb, c);
    ExtendChainWF(sb, d, f, chains, nb, i, b);
    LinkGrown(f, c, f0, c0, ds, nb, t, b, g);
    assert ch[i] == c + [b as nat];
  }

  /** The FAT side of a link: the block taken is the next one of the free list. */
  lemma LinkGrown(f: seq<u32>, c: seq<nat>, f0: seq<u32>, c0: seq<nat>, ds: nat, nb: nat, t: nat, b: u32, g: seq<u32>)
    requires 0 < ds && nb <= |f0| && GrownFrom(f, c, f0, c0, ds, nb) && t in c && t < |f| && f[t] == EOFF
    requires FreeBlocks(f, ds, nb) != [] && b as nat == FreeBlocks(f, ds, nb)[0]
    requires g == f[t := b][b := EOFF]
    ensures GrownFrom(g, c + [b as nat], f0, c0, ds, nb)
  {
    FreeBlocksAreFree(f, ds, nb);
    FreeBlocksKeep(f, ds, nb, t, b);
    FreeBlocksTake(f[t := b], ds, nb, EOFF);
    GrownStep(f, c, f0, c0, ds, nb, b as nat, g);
  }

  /** Giving entry `i`, used but without a chain, the FREE data block `b` as its
      first block (fat.c:431-446). */
  lemma StartChainWF(sb: Super, d: seq<DirItem>, f: seq<u32>, chains: seq<seq<nat>>, nb: nat, i: nat, b: u32)
    requires WF(sb, d, f, chains, nb) && i < N_ITEMS && d[i].used && chains[i] == []
    requires DataStart(nb) <= b < nb && f[b] == FREE
    ensures WF(sb, d[i := d[i].(first := b)], f[b := EOFF], chains[i := [b]], nb)
  {
    var e := d[i].(first := b);
    assert EntryOk(d[i], f, nb, chains[i]);
    forall j | 0 <= j < N_ITEMS && j != i && d[j].used
      ensures d[j].name != e.name
    {
      if j < i { assert d[j].name != d[i].name; } else { assert d[i].name != d[j].name; }
    }
    NewChainWF(sb, d, f, chains, nb, i, e, b);
  }

  // -------------------------------------------------------------------- writes

  /** Stream of a chain with one more block. */
  lemma StreamAppend(disk: seq<seq<byte>>, c: seq<nat>, b: nat)
    requires b < |disk| && |disk[b]| == 1024
    ensures Stream(disk, c + [b]) == Stream(disk, c) + disk[b]
  {
    var c' := c + [b];
    forall p | 0 <= p < |c'| * 1024
      ensures Stream(disk, c')[p] == (Stream(disk, c) + disk[b])[p]
    {
      if p < |c| * 1024 {
        assert c'[p / 1024] == c[p / 1024];
      } else {
        assert p / 1024 == |c| && p % 1024 == p - |c| * 1024;
      }
    }
  }

  /** The stream of a chain only depends on the chain's own blocks. */
  lemma StreamFrame(disk: seq<seq<byte>>, disk': seq<seq<byte>>, c: seq<nat>)
    requires |disk'| == |disk|
    requires forall k :: 0 <= k < |c| && c[k] < |disk| ==> disk'[c[k]] == disk[c[k]]
    ensures Stream(disk', c) == Stream(disk, c)
  {
    forall p | 0 <= p < |c| * 1024
      ensures Stream(disk', c)[p] == Stream(disk, c)[p]
    {
      var k := p / 1024;
      assert 0 <= k < |c|;
    }
  }

  /** Patching bytes `[start, start + |src|)` of block `j` of a chain without
      repeated blocks patches the chain's stream at `j * BLOCK_SIZE + start`. */
  lemma StreamWrite(disk: seq<seq<byte>>, c: seq<nat>, j: nat, start: nat, src: seq<byte>)
    requires j < |c| && c[j] < |disk| && |disk[c[j]]| == 1024 && start + |src| <= 1024
    requires forall a, b :: 0 <= a < b < |c| ==> c[a] != c[b]
    ensures Stream(disk[c[j] := Patch(disk[c[j]], start, src)], c) == Patch(Stream(disk, c), j * 1024 + start, src)
  {
    var disk' := disk[c[j] := Patch(disk[c[j]], start, src)];
    var at := j * 1024 + start;
    var s := Stream(disk, c);
    forall p | 0 <= p < |c| * 1024
      ensures Stream(disk', c)[p] == Patch(s, at, src)[p]
    {
      var k := p / 1024;
      var q := p % 1024;
      assert p == k * 1024 + q && 0 <= k < |c|;
      if k == j {
        assert Stream(disk', c)[p] == Patch(disk[c[j]], start, src)[q];
      } else {
        assert c[k] != c[j];
        assert !(at <= p < at + |src|);
      }
    }
  }

  /** Bytes appended after the patched window are left alone. */
  lemma PatchAppend(s: seq<byte>, t: seq<byte>, at: nat, src: seq<byte>)
    requires at + |src| <= |s|
    ensures Patch(s + t, at, src) == Patch(s, at, src) + t
  {
    var l := Patch(s + t, at, src);
    var r := Patch(s, at, src) + t;
    forall q | 0 <= q < |l|
      ensures l[q] == r[q]
    {
      if q >= |s| {
        assert r[q] == t[q - |s|];
      }
    }
  }

  /** Two adjacent patches are one patch with the concatenated bytes. */
  lemma PatchTwice(s: seq<byte>, at: nat, a: seq<byte>, b: seq<byte>)
    requires at + |a| + |b| <= |s|
    ensures Patch(Patch(s, at, a), at + |a|, b) == Patch(s, at, a + b)
  {
    var l := Patch(Patch(s, at, a), at + |a|, b);
    var r := Patch(s, at, a + b);
    forall q | 0 <= q < |s|
      ensures l[q] == r[q]
    {
      if at <= q < at + |a| {
        assert (a + b)[q - at] == a[q - at];
      } else if at + |a| <= q < at + |a| + |b| {
        assert (a + b)[q - at] == b[q - at - |a|];
      }
    }
  }

  /** The store `disk` is the store `d0` with `data` written at byte `offset`
      of chain `c`'s stream: the stream is the old one with `data` laid over
      it, and no block outside the chain changed except the directory and FAT
      blocks `[DIR, lo)`. */
  ghost predicate Overlaid(disk: seq<seq<byte>>, d0: seq<seq<byte>>, c: seq<nat>, lo: nat, offset: nat, data: seq<byte>)
  {
    |d0| == |disk| && offset + |data| <= |c| * 1024 &&
    Stream(disk, c) == Patch(Stream(d0, c), offset, data) &&
    forall x :: 0 <= x < |disk| && x !in c && (x == SUPER || lo <= x) ==> disk[x] == d0[x]
  }

  lemma SliceOfPrefix(s: seq<byte>, len: nat, a: nat, b: nat)
    requires a <= b <= len <= |s|
    ensures s[..len][a..b] == s[a..b]
  {
  }

  lemma PrefixConcat(s: seq<byte>, a: nat, b: nat)
    requires a <= b <= |s|
    ensures s[..a] + s[a..b] == s[..b] && s[..|s|] == s
  {
  }

  /** Nothing written yet. */
  lemma OverlaidStart(disk: seq<seq<byte>>, c: seq<nat>, lo: nat, offset: nat)
    requires offset <= |c| * 1024
    ensures Overlaid(disk, disk, c, lo, offset, [])
  {
    var s := Stream(disk, c);
    assert Patch(s, offset, []) == s;
  }

  /** Linking an untouched block after the chain keeps the overlay. */
  lemma OverlaidExtend(disk: seq<seq<byte>>, d0: seq<seq<byte>>, c: seq<nat>, lo: nat, b: nat, offset: nat, data: seq<byte>)
    requires Overlaid(disk, d0, c, lo, offset, data)
    requires lo <= b < |disk| && |disk[b]| == 1024 && b !in c
    ensures Overlaid(disk, d0, c + [b], lo, offset, data)
  {
    assert disk[b] == d0[b];
    StreamAppend(disk, c, b);
    StreamAppend(d0, c, b);
    PatchAppend(Stream(d0, c), d0[b], offset, data);
  }

  /** Writing the next bytes `src` into block `j` of the chain, right where the
      bytes written so far end, extends the overlay by `src`. */
  lemma OverlaidWrite(disk: seq<seq<byte>>, d0: seq<seq<byte>>, c: seq<nat>, lo: nat, j: nat, start: nat,
                      offset: nat, data: seq<byte>, src: seq<byte>)
    requires Overlaid(disk, d0, c, lo, offset, data)
    requires j < |c| && c[j] < |disk| && |disk[c[j]]| == 1024 && start + |src| <= 1024
    requires forall a, b :: 0 <= a < b < |c| ==> c[a] != c[b]
    requires offset + |data| == j * 1024 + start
    ensures Overlaid(disk[c[j] := Patch(disk[c[j]], start, src)], d0, c, lo, offset, data + src)
  {
    StreamWrite(disk, c, j, start, src);
    PatchTwice(Stream(d0, c), offset, data, src);
  }

  /** Rewriting only the directory and FAT blocks `[DIR, lo)` keeps the overlay
      of a chain that lies at or above `lo`. */
  lemma OverlaidKeep(disk: seq<seq<byte>>, disk': seq<seq<byte>>, d0: seq<seq<byte>>, c: seq<nat>, lo: nat,
                     offset: nat, data: seq<byte>)
    requires Overlaid(disk, d0, c, lo, offset, data)
    requires forall k :: 0 <= k < |c| ==> lo <= c[k]
    requires |disk'| == |disk| && forall x :: 0 <= x < |disk| && (x == SUPER || lo <= x) ==> disk'[x] == disk[x]
    ensures Overlaid(disk', d0, c, lo, offset, data)
  {
    StreamFrame(disk, disk', c);
  }

  /** What a write leaves in the stream: `data` at `offset`, and the old bytes
      everywhere else. */
  lemma OverlaidRead(disk: seq<seq<byte>>, d0: seq<seq<byte>>, c: seq<nat>, lo: nat, offset: nat, data: seq<byte>)
    requires Overlaid(disk, d0, c, lo, offset, data)
    ensures Stream(disk, c)[offset .. offset + |data|] == data
    ensures forall p :: 0 <= p < |c| * 1024 && !(offset <= p < offset + |data|) ==>
      Stream(disk, c)[p] == Stream(d0, c)[p]
  {
    var s := Stream(disk, c);
    forall q | 0 <= q < |data|
      ensures s[offset + q] == data[q]
    {
    }
  }

  /** A chain that extends `c0` starts with the bytes of `c0`. */
  lemma StreamPrefix(disk: seq<seq<byte>>, c0: seq<nat>, c: seq<nat>)
    requires |c0| <= |c| && c[..|c0|] == c0
    ensures forall p :: 0 <= p < |c0| * 1024 ==> Stream(disk, c)[p] == Stream(disk, c0)[p]
  {
    forall p | 0 <= p < |c0| * 1024
      ensures Stream(disk, c)[p] == Stream(disk, c0)[p]
    {
      assert c[p / 1024] == c0[p / 1024];
    }
  }

  /** A file of `len0` bytes on chain `c0` that grew to chain `c` and got
      `data` at `offset`, its length raised to `len`: its bytes at `offset`
      are `data`, and its old bytes outside the window are kept. */
  lemma WrittenBytes(disk: seq<seq<byte>>, d0: seq<seq<byte>>, c0: seq<nat>, c: seq<nat>, lo: nat,
                     offset: nat, data: seq<byte>, len0: nat, len: nat)
    requires Overlaid(disk, d0, c, lo, offset, data)
    requires |c0| <= |c| && c[..|c0|] == c0
    requires len0 <= |c0| * 1024 && len == Max(len0, offset + |data|)
    ensures len <= |c| * 1024
    ensures Stream(disk, c)[..len][offset .. offset + |data|] == data
    ensures forall p :: 0 <= p < len0 && !(offset <= p < offset + |data|) ==>
      Stream(disk, c)[..len][p] == Stream(d0, c0)[..len0][p]
  {
    OverlaidRead(disk, d0, c, lo, offset, data);
    StreamPrefix(d0, c0, c);
    SliceOfPrefix(Stream(disk, c), len, offset, offset + |data|);
  }

  /** Chain `c` is `c0` extended by the first FREE data blocks of `f0`, taken
      lowest first, and FAT `f` differs from `f0` only on the blocks of `c`. */
  ghost predicate GrownFrom(f: seq<u32>, c: seq<nat>, f0: seq<u32>, c0: seq<nat>, ds: nat, nb: nat)
    requires nb <= |f0|
  {
    var free0 := FreeBlocks(f0, ds, nb);
    |f| == |f0| && |c0| <= |c| <= |c0| + |free0| &&
    c == c0 + free0[..|c| - |c0|] &&
    FreeBlocks(f, ds, nb) == free0[|c| - |c0|..] &&
    forall x {:trigger f0[x]} :: 0 <= x < |f| && x !in c ==> f[x] == f0[x]
  }

  /** A chain that has not grown. */
  lemma GrownSelf(f: seq<u32>, c: seq<nat>, ds: nat, nb: nat)
    requires nb <= |f|
    ensures GrownFrom(f, c, f, c, ds, nb)
  {
    var free := FreeBlocks(f, ds, nb);
    assert free[0..] == free;
    assert c + free[..0] == c;
  }

  /** Growing a chain only moves blocks from the free list onto the chain. */
  lemma GrownCount(f: seq<u32>, c: seq<nat>, f0: seq<u32>, c0: seq<nat>, ds: nat, nb: nat)
    requires nb <= |f0| && GrownFrom(f, c, f0, c0, ds, nb)
    ensures |c| + |FreeBlocks(f, ds, nb)| == |c0| + |FreeBlocks(f0, ds, nb)|
  {
  }

  /** Taking the next free block onto the chain keeps it lowest-first. */
  lemma GrownStep(f: seq<u32>, c: seq<nat>, f0: seq<u32>, c0: seq<nat>, ds: nat, nb: nat, b: nat, g: seq<u32>)
    requires nb <= |f0| && GrownFrom(f, c, f0, c0, ds, nb)
    requires FreeBlocks(f, ds, nb) != [] && b == FreeBlocks(f, ds, nb)[0]
    requires |g| == |f| && FreeBlocks(g, ds, nb) == FreeBlocks(f, ds, nb)[1..]
    requires forall x :: 0 <= x < |f| && x !in c + [b] ==> g[x] == f[x]
    ensures GrownFrom(g, c + [b], f0, c0, ds, nb)
  {
    var free0 := FreeBlocks(f0, ds, nb);
    var k := |c| - |c0|;
    assert b == free0[k];
    assert free0[..k + 1] == free0[..k] + [free0[k]];
    assert free0[k..][1..] == free0[k + 1..];
  }
}

=== FILE: fat_types.dfy ===
/** Constants, machine-word types and records of the FAT filesystem (fat.c). */
module FatTypes {

  // Products and quotients below write the sizes 1024 (BLOCK_SIZE), 256
  // (ENTRIES_PER_BLOCK) and 16 (ITEM_SIZE) as literals, which keeps the
  // arithmetic linear for the verifier.

  /** Size of one block of the block store, in bytes. */
  const BLOCK_SIZE: nat := 1024

  // Block numbers of the reserved regions
  const SUPER: nat := 0
  const DIR: nat := 1
  const TABLE: nat := 2

  const MAGIC_N: u32 := 0xAC00_10DE

  /** Longest name `fat_create` accepts; names are stored in a field one byte longer. */
  const MAX_LETTERS: nat := 6
  const NAME_FIELD: nat := 7  // MAX_LETTERS + 1

  /** Bytes of one directory item: used (1), name (7), length (4), first (4). */
  const ITEM_SIZE: nat := 16
  const N_ITEMS: nat := 64  // BLOCK_SIZE / ITEM_SIZE

  // FAT sentinels; they coincide with block numbers 0, 1 and 2
  const FREE: u32 := 0
  const EOFF: u32 := 1
  const BUSY: u32 := 2

  /** FAT entries (4 bytes each) held by one FAT block. */
  const ENTRIES_PER_BLOCK: nat := 256  // BLOCK_SIZE / 4

  /** Capacity of the in-memory FAT, sized for at most 4096 FAT blocks. */
  const FAT_ENTRIES: nat := 0x10_0000  // BLOCK_SIZE * 4096 / 4

  const INT_MAX: nat := 0x7FFF_FFFF

  type byte = x: int | 0 <= x < 0x100
  type u32 = x: int | 0 <= x < 0x1_0000_0000
  type i32 = x: int | -0x8000_0000 <= x < 0x8000_0000

  /** A C string: bytes up to, and not including, the terminating NUL. */
  type CString = s: seq<byte> | forall k | 0 <= k < |s| :: s[k] != 0 witness []

  /** The superblock: `magic` is compared as an unsigned word; the counts are C `int`s. */
  datatype Super = Super(magic: u32, numberBlocks: i32, nFatBlocks: i32, padding: seq<byte>)

  datatype DirItem = DirItem(used: bool, name: CString, length: u32, first: u32)

  /** The `errno` values fat.c sets. */
  datatype Errno = EBUSY | EINVAL | EEXIST | ENOSPC | ENOENT

  /** A return value, or -1 with `errno` set. */
  datatype Result<T> = Ok(value: T) | Err(error: Errno)

  /** Number of FAT blocks for a store of `nb` blocks: ceil(nb * 4 / BLOCK_SIZE). */
  function FatBlocks(nb: nat): (r: nat)
    ensures r * 1024 >= nb * 4
    ensures r == 0 || (r - 1) * 1024 < nb * 4
    ensures nb >= 1 ==> r >= 1
  {
    (nb * 4 + 1023) / 1024
  }

  /** First data block of a formatted store of `nb` blocks. */
  function DataStart(nb: nat): (r: nat)
  {
    TABLE + FatBlocks(nb)
  }

  /** Blocks a byte stream of `len` bytes occupies: ceil(len / BLOCK_SIZE). */
  function BlocksFor(len: nat): (r: nat)
    ensures r * 1024 >= len
    ensures r == 0 || (r - 1) * 1024 < len
  {
    (len + 1023) / 1024
  }

  /** The `unsigned int` a C `int` is converted to where it meets one: the
      same value modulo 2^32. */
  function Unsigned(x: i32): (r: u32)
  {
    if x < 0 then x + 0x1_0000_0000 else x
  }

  function Min(a: int, b: int): (r: int) { if a < b then a else b }
  function Max(a: int, b: int): (r: int) { if a < b then b else a }

  /** The reserved blocks end at or above block 3 on any non-empty store, so a
      data block number is never one of the sentinels FREE, EOFF or BUSY. */
  lemma DataBlocksAreNotSentinels(nb: nat, b: nat)
    requires 1 <= nb && DataStart(nb) <= b
    ensures b != FREE as nat && b != EOFF as nat && b != BUSY as nat
  {
  }

  /** The FAT of a store the buffer can describe fits the buffer. */
  lemma FatTableFits(nb: nat)
    requires nb <= FAT_ENTRIES
    ensures FatBlocks(nb) * 256 <= FAT_ENTRIES
  {
  }
}

=== FILE: scenarios.dfy ===
/** Sequences of fat.c calls as a client issues them, with what the pair
    promises: a formatted store mounts, a created file is empty, a deleted
    file is gone and written bytes read back. */
module Scenarios {
  import opened FatTypes
  import opened Encoding
  import opened FatSpec
  import opened Fat

  /** `fat_mount` of a store whose metadata blocks were written from a
      well-formed state: the mount succeeds and rebuilds exactly that state
      (superblock, directory, FAT below the store size and the chains), so
      the mounted filesystem is well-formed, and leak-free when the state was. */
  method MountFlushed(fs: FileSystem, ghost s0: Super, ghost d0: seq<DirItem>, ghost f0: seq<u32>,
                      ghost c0: seq<seq<nat>>) returns (m: Result<()>)
    requires fs.Inv() && !fs.mounted
    requires WF(s0, d0, f0, c0, fs.size) && |s0.padding| == PADDING && StorableDir(d0) && |f0| == FAT_ENTRIES
    requires fs.disk[SUPER] == EncodeSuper(s0) && fs.disk[DIR] == EncodeDir(d0)
    requires forall j :: 0 <= j < s0.nFatBlocks ==> fs.disk[TABLE + j] == EncodeFatBlock(f0, j)
    modifies fs, fs.dir, fs.fat
    ensures m == Ok(()) && fs.Inv() && fs.mounted && fs.WellFormed()
    ensures fs.sb == s0 && fs.dir[..] == d0 && fs.chains == c0
    ensures forall b :: 0 <= b < fs.size ==> fs.fat[b] == f0[b]
    ensures forall b :: 0 <= b < FAT_ENTRIES ==>
      fs.fat[b] == if b < s0.nFatBlocks * 256 then f0[b] else old(fs.fat[b])
    ensures fs.disk == old(fs.disk)
    ensures Accounted(f0, c0, DataStart(fs.size), fs.size) ==> fs.NoLeak()
  {
    SuperRoundTrip(s0);
    FatTableFits(fs.size);
    m := fs.Mount();
    DirRoundTrip(d0);
    assert fs.dir[..] == d0;
    FatReload(fs.disk, f0, fs.fat[..], s0.nFatBlocks);
    WFFrame(s0, d0, f0, fs.fat[..], c0, fs.size);
    forall j | 0 <= j < N_ITEMS
      ensures fs.chains[j] == c0[j]
    {
      assert fs.chains[j] == fs.LoadedChains()[j];
      assert fs.dir[j] == d0[j];
    }
    assert fs.chains == c0;
    if Accounted(f0, c0, DataStart(fs.size), fs.size) {
      assert Accounted(fs.fat[..], c0, DataStart(fs.size), fs.size);
    }
  }

  /** `fat_format` then `fat_mount` on an unmounted store: both succeed, and
      the mounted filesystem is the one format laid out, read back from the
      store: every entry unused, the reserved blocks BUSY, the rest FREE. */
  method FormatThenMount(fs: FileSystem) returns (f: Result<()>, m: Result<()>)
    requires fs.Inv() && !fs.mounted && 0 < fs.size && DataStart(fs.size) <= fs.size
    modifies fs, fs.dir, fs.fat
    ensures f == Ok(()) && m == Ok(())
    ensures fs.Inv() && fs.mounted && fs.WellFormed() && fs.NoLeak() && fs.Flushed()
    ensures fs.sb.magic == MAGIC_N && fs.sb.numberBlocks == fs.size && fs.sb.nFatBlocks == FatBlocks(fs.size)
    ensures forall j :: 0 <= j < N_ITEMS ==> !fs.dir[j].used
    ensures forall b :: 0 <= b < fs.size ==> fs.fat[b] == if b < DataStart(fs.size) then BUSY else FREE
  {
    f := fs.Format();
    ghost var s1, d1, f1, c1 := fs.sb, fs.dir[..], fs.fat[..], fs.chains;
    m := MountFlushed(fs, s1, d1, f1, c1);
    assert fs.fat[..] == f1;
  }

  /** `fat_create` then `fat_getsize` on the same name: a created file has
      length 0; when create fails for a bad name or an unmounted store, so
      does getsize. */
  method CreateThenGetSize(fs: FileSystem, name: CString) returns (c: Result<()>, g: Result<nat>)
    requires fs.Inv()
    modifies fs, fs.dir, fs.fat
    ensures c.Ok? ==> g == Ok(0)
    ensures c == Err(EEXIST) ==> g.Ok?
    ensures c == Err(EINVAL) ==> g == Err(EINVAL)
  {
    ghost var d0 := fs.dir[..];
    c := fs.Create(name);
    if c.Ok? {
      var s := FirstUnused(d0);
      assert fs.dir[..][s].used && fs.dir[..][s].name == name;
      assert Find(fs.dir[..], name) == s;
    } else {
      assert fs.dir[..] == d0;
    }
    g := fs.GetSize(name);
  }

  /** `fat_delete` then `fat_getsize` on the same name: after a successful
      delete the file is gone (ENOENT); a failed delete fails getsize the
      same way. */
  method DeleteThenGetSize(fs: FileSystem, name: CString) returns (d: Result<()>, g: Result<nat>)
    requires fs.Inv() && (fs.mounted ==> fs.WellFormed())
    modifies fs, fs.dir, fs.fat
    ensures d.Ok? ==> g == Err(ENOENT)
    ensures d.Err? ==> g == Err(d.error)
  {
    d := fs.Delete(name);
    g := fs.GetSize(name);
  }

  /** `fat_write` of a non-empty `buf` at `offset`, then `fat_read` of as
      many bytes at the same offset: a successful write returns `|buf|`, and
      the read returns exactly `buf`. */
  method WriteThenRead(fs: FileSystem, name: CString, buf: seq<byte>, offset: nat)
    returns (w: Result<nat>, r: Result<seq<byte>>)
    requires fs.Inv() && (fs.mounted ==> fs.WellFormed())
    requires 0 < |buf| && offset + |buf| + 1023 <= INT_MAX
    modifies fs, fs.dir, fs.fat
    ensures w.Ok? ==> w == Ok(|buf|) && r == Ok(buf)
  {
    ghost var i, d0, disk0;
    w, i, d0, disk0 := WriteInto(fs, name, buf, offset);
    r := ReadAfterWrite(fs, name, buf, offset, w, i, d0, disk0);
  }

  /** `fat_write` of a non-empty `buf`: when it succeeds, it returns `|buf|`
      and leaves slot `i`, the one the name found in the directory `d0`
      before, holding `buf` at `offset` over the old store `disk0`. */
  method WriteInto(fs: FileSystem, name: CString, buf: seq<byte>, offset: nat)
    returns (w: Result<nat>, ghost i: nat, ghost d0: seq<DirItem>, ghost disk0: seq<seq<byte>>)
    requires fs.Inv() && (fs.mounted ==> fs.WellFormed())
    requires 0 < |buf| && offset + |buf| + 1023 <= INT_MAX
    modifies fs, fs.dir, fs.fat
    ensures fs.Inv()
    ensures w.Ok? ==> w == Ok(|buf|)
    ensures w.Ok? ==>
      i < N_ITEMS && |name| <= MAX_LETTERS && |d0| == N_ITEMS && Find(d0, name) == i &&
      (forall j :: 0 <= j < N_ITEMS && j != i ==> fs.dir[j] == d0[j]) &&
      fs.dir[i].used && fs.dir[i].name == name && fs.dir[i].length as nat >= offset + |buf| &&
      fs.mounted && fs.WellFormed() &&
      Overlaid(fs.disk, disk0, fs.chains[i], fs.FirstDataBlock(), offset, buf)
  {
    d0 := fs.dir[..];
    disk0 := fs.disk;
    ghost var check := fs.CheckWrite(name, |buf|, offset);
    w := fs.Write(name, buf, offset);
    i := if check.Ok? then check.value else 0;
  }

  /** `fat_read` of `|buf|` bytes at `offset` right after a `fat_write` of
      `buf` there returned `w`: when the write succeeded into slot `i`, the
      read returns `buf`. */
  method ReadAfterWrite(fs: FileSystem, name: CString, buf: seq<byte>, offset: nat, w: Result<nat>, ghost i: nat,
                        ghost d0: seq<DirItem>, ghost disk0: seq<seq<byte>>) returns (r: Result<seq<byte>>)
    requires fs.Inv() && 0 < |buf| && offset + |buf| <= INT_MAX
    requires w.Ok? ==>
      i < N_ITEMS && |name| <= MAX_LETTERS && |d0| == N_ITEMS && Find(d0, name) == i &&
      (forall j :: 0 <= j < N_ITEMS && j != i ==> fs.dir[j] == d0[j]) &&
      fs.dir[i].used && fs.dir[i].name == name && fs.dir[i].length as nat >= offset + |buf| &&
      fs.mounted && fs.WellFormed() &&
      Overlaid(fs.disk, disk0, fs.chains[i], fs.FirstDataBlock(), offset, buf)
    ensures w.Ok? ==> r == Ok(buf)
  {
    if w.Ok? {
      ReadsBack(fs, name, buf, offset, i, d0, disk0);
    }
    r := fs.Read(name, |buf|, offset);
  }

  /** After a write of `buf` at `offset` into slot `i`, the name still finds
      slot `i` and the file holds `buf` at `offset`. */
  lemma ReadsBack(fs: FileSystem, name: CString, buf: seq<byte>, offset: nat, i: nat,
                  d0: seq<DirItem>, disk0: seq<seq<byte>>)
    requires fs.Inv() && fs.mounted && fs.WellFormed() && i < N_ITEMS
    requires |d0| == N_ITEMS && Find(d0, name) == i
    requires forall j :: 0 <= j < N_ITEMS && j != i ==> fs.dir[j] == d0[j]
    requires fs.dir[i].used && fs.dir[i].name == name && fs.dir[i].length as nat >= offset + |buf|
    requires Overlaid(fs.disk, disk0, fs.chains[i], fs.FirstDataBlock(), offset, buf)
    ensures Find(fs.dir[..], name) == i
    ensures fs.FileData(i)[offset .. offset + |buf|] == buf
  {
    FindSameNames(d0, fs.dir[..], name);
    assert EntryOk(fs.dir[..][i], fs.fat[..], fs.size, fs.chains[i]);
    OverlaidRead(fs.disk, disk0, fs.chains[i], fs.FirstDataBlock(), offset, buf);
    SliceOfPrefix(Stream(fs.disk, fs.chains[i]), fs.dir[i].length as nat, offset, offset + |buf|);
  }
}
